=== FILE: README.md ===
# Page capture route — a Dafny model

The application takes screenshots of a web page. Its `POST` handler for
`/api/capture` does the following:

1. Reads `{ url }` from the JSON body and validates it.
2. Launches a headless browser and loads the page.
3. Dismisses at most one popup or consent banner.
4. Scrolls the page to load lazy images.
5. Captures the page. When the page has tabs, it captures every tab, each at
   a viewport adapted to the height of the body.
6. Closes the browser on every exit taken after launch.

It returns the named screenshots, a 400 for a bad URL, or a 500 with the
error's message.

This project models that handler, from `app/api/capture/route.ts`, as pure
functions over scripted outcomes. Every awaited browser call is represented
only by what it resolved to, or by the fault it rejected with (`Outcomes.Step`).
A scenario is therefore a value, and the handler is a function from the
request and the scenario to the response and a trace of events.

Modules:

- `Outcomes`: `Option`, `Fault` and `Step`.
- `JsText`:
  - the JavaScript string primitives the route uses, namely `\s`, `trim()`,
    ASCII `toLowerCase()` and `includes`;
  - the decimal rendering of a natural number.
- `Filenames`: `generateFilename`, covering the success branch and the branch
  taken when `new URL` throws.
- `Popups`: `closePopups`, as two ordered first-match passes.
  - The structural pass runs over the 23 CSS selectors.
  - The textual fallback is the in-page scan against the button vocabulary.
- `Scrolling`: `scrollToBottomAndLoadImages` and the route's policy for a
  scroll error. It also models the in-page scroll loop as ticks.
- `Trace`: the events of a request, with the settle-gating and lifecycle
  predicates over them.
- `Views`: the steps shared by every captured view.
  - Settling: popups, the extended wait, then scrolling.
  - Capturing: adapting the viewport, taking the screenshot, then restoring
    the viewport.
- `Tabs`: tab labels and the per-tab fold. The viewport is threaded from one
  iteration to the next.
- `CaptureRoute`: the `POST` handler.

## Model

| member | source | states |
|---|---|---|
| JsText.TrimStart | app/api/capture/route.ts:156-158 | the result is a suffix of the input; everything removed is whitespace from the exact `\s` set; the result does not start with whitespace |
| JsText.TrimEnd | app/api/capture/route.ts:156-158 | the result is a prefix of the input; everything removed is whitespace; the result does not end with whitespace |
| JsText.TrimIdempotent | app/api/capture/route.ts:309 | trimming an already trimmed text changes nothing |
| JsText.LowerIdempotent | app/api/capture/route.ts:215 | lower-casing twice is lower-casing once |
| JsText.ContainsChar | app/api/capture/route.ts:160 | `includes` of a one-character string holds exactly when that character occurs in the text |
| JsText.DecimalRoundTrip | app/api/capture/route.ts:222 | reading back the decimal digits of a clock value gives that value |
| JsText.DecimalInjective | app/api/capture/route.ts:310-313 | distinct numbers render differently, so two placeholder tab labels never coincide |
| Filenames.Filter | app/api/capture/route.ts:214-215 | the `[^…]` replacement keeps only accepted characters and never lengthens the text |
| Filenames.FilterConcat | app/api/capture/route.ts:214-215 | filtering distributes over concatenation |
| Filenames.FilterKeepsAccepted | app/api/capture/route.ts:214 | a text made only of accepted characters is kept whole |
| Filenames.CollapseSpaces | app/api/capture/route.ts:215 | `replace(/\s+/g, '_')` leaves no whitespace and never lengthens the text |
| Filenames.CollapseRun | app/api/capture/route.ts:215 | a whole run of whitespace becomes exactly one `_` |
| Filenames.CollapseConcat | app/api/capture/route.ts:215 | collapsing is local: it commutes with a cut made right after a character that is not whitespace |
| Filenames.CollapseRunBeforeText | app/api/capture/route.ts:215 | a leading whitespace run, followed by text that does not start with whitespace, becomes one `_` before that text's collapsed form; with CollapseConcat, CollapseRun and CollapseUnchanged this fixes the result on every input |
| Filenames.CollapseJoinRun | app/api/capture/route.ts:215 | an interior whitespace run becomes one `_` between the collapsed texts on either side |
| Filenames.StripEdgeSlashes | app/api/capture/route.ts:212 | the result is a contiguous slice of the pathname; only `/` characters lie outside it, at most one at each end; its length is the pathname's, less one for a leading `/` and one more for a `/` that ends what remains |
| Filenames.StripOnlyOnce | app/api/capture/route.ts:212 | only one slash is removed at each end: `//p//` strips to `/p/` |
| Filenames.SlashesToUnderscores | app/api/capture/route.ts:212 | each `/` becomes `_`, and every other character and the length are kept |
| Filenames.PathStem | app/api/capture/route.ts:211-214 | the stem is made of `[A-Za-z0-9_]`; it is `home` when the stripped path is empty |
| Filenames.StemIsFilteredPath | app/api/capture/route.ts:211-214 | for every path that is non-empty once stripped, the stem is that path with every character other than `[A-Za-z0-9_/]` dropped and `_` for `/`, so `/a-b` gives `ab` |
| Filenames.NamePathStem | app/api/capture/route.ts:211-214 | a stripped path that is non-empty and holds only name characters and `/` gives that path with `_` for `/` rather than `home` |
| Filenames.PathOfSegments | app/api/capture/route.ts:211-214 | `/a/b` with name-character segments gives `a_b` |
| Filenames.SanitizeLabel | app/api/capture/route.ts:215 | the sanitised suffix holds only `[a-z0-9_]` and is no longer than the suffix |
| Filenames.SanitizeIdempotent | app/api/capture/route.ts:215 | sanitising a sanitised suffix changes nothing |
| Filenames.LabelPart | app/api/capture/route.ts:217 | the kept part is the first at most 50 characters of the sanitised suffix, and all of it when shorter |
| Filenames.FallbackName | app/api/capture/route.ts:219-223 | when the URL does not parse, the stem starts with `capture` and ends with `_` and the clock reading |
| Filenames.FallbackTailIsLabelTail | app/api/capture/route.ts:217-222 | the catch branch's emptiness test and truncation give the same tail as the success branch |
| Filenames.Filename | app/api/capture/route.ts:208-224 | every name ends in `.png` with only `[A-Za-z0-9_]` before it; a name built when `new URL` throws starts with `capture` and ends with `_<now>.png` |
| Filenames.FallbackSharesLabelTail | app/api/capture/route.ts:215-222 | the fallback name is `capture`, the same label tail, `_`, the clock reading and `.png` |
| Filenames.EmptyLabelAddsNothing | app/api/capture/route.ts:218 | a suffix that sanitises to nothing adds neither text nor `_` |
| Filenames.LabelAtEnd | app/api/capture/route.ts:217-218 | a non-empty suffix part sits between `_` and `.png`; the name exceeds the stem by at most 55 characters |
| Filenames.CaseVariantsCollide | app/api/capture/route.ts:215 | suffixes that differ only in case give the same name |
| Filenames.SanitizeJoinRun | app/api/capture/route.ts:215 | an interior whitespace run of the suffix becomes one `_` between the sanitised texts on either side, so `Customer Reviews` gives `customer_reviews` |
| Filenames.SanitizeIgnoresRunShape | app/api/capture/route.ts:215 | suffixes that differ only in the length or kind of one whitespace run sanitise alike |
| Filenames.WhitespaceVariantsCollide | app/api/capture/route.ts:215-218 | tab labels that differ only in the length or kind of one whitespace run get the same file name |
| Filenames.SameNameForDistinctTabs | app/api/capture/route.ts:215-218 | tabs labelled `Reviews` and `reviews` get the same file name |
| Filenames.ProductsShoesExamples | app/api/capture/route.ts:208-218 | `/products/shoes` with label `Reviews` gives `products_shoes_reviews.png` |
| Filenames.ProductsShoesWithoutLabel | app/api/capture/route.ts:208-218 | `/products/shoes` with no label gives `products_shoes.png` |
| Filenames.ParsedFilename | app/api/capture/route.ts:211-218 | on the success path the name is the path stem, the label tail and `.png` |
| Filenames.HomeAndEmptyStem | app/api/capture/route.ts:212-214 | `/` gives `home.png`; `/-/` gives `.png`, because the `home` test runs before filtering |
| Filenames.FallbackExample | app/api/capture/route.ts:219-222 | an unparsable URL with label `X` gives `capture_x_<now>.png` |
| Popups.FirstClickable | app/api/capture/route.ts:121-134 | the chosen handle intersects the viewport and its click does not throw; every earlier handle fails one of those; none is chosen exactly when no handle qualifies |
| Popups.StructuralFrom | app/api/capture/route.ts:116-142 | selectors are answered by position; the pick is the first selector whose query offers a clickable handle, at its first clickable handle; a failed query only skips its selector; there is no pick exactly when no selector offers one |
| Popups.FirstDispatch | app/api/capture/route.ts:152-178 | the scan clicks the first element, in document order, that is attached, matches the vocabulary or the close glyph, is visible, and whose click does not throw |
| Popups.ClosePopups | app/api/capture/route.ts:73-205 | a reported click always has a target; a structural target is always reported |
| Popups.ClickedIff | app/api/capture/route.ts:73-205 | the call returns true exactly when some selector offers a clickable handle, or the scan finds an element to click and the evaluation does not reject |
| Popups.StructuralFirst | app/api/capture/route.ts:145-146 | once the structural pass clicks, the textual scan has no influence on the result |
| Popups.StructuralPicksFirst | app/api/capture/route.ts:116-134 | the click goes no later than any clickable handle, in selector order and then query order |
| Popups.NothingToDismiss | app/api/capture/route.ts:199-204 | with nothing clickable, the call reports no click and has no target |
| Popups.RejectionHidesClick | app/api/capture/route.ts:182-196 | when the evaluation rejects, the call reports false even though the scan dispatched a click |
| Popups.TextualPicksFirst | app/api/capture/route.ts:152-178 | the textual click goes to the first dispatching element in document order |
| Popups.AnyLetterXMatches | app/api/capture/route.ts:156-180 | since `x` is in the vocabulary, any element whose text contains the letter x qualifies by vocabulary |
| Popups.CloseGlyphAlreadyMatches | app/api/capture/route.ts:158-160 | a text that is exactly `×`, `x` or `X` (after trimming) already matches the vocabulary |
| Scrolling.ScrollToBottomAndLoadImages | app/api/capture/route.ts:40-69 | the helper resolves whatever its two `evaluate` calls do, because its catch swallows their errors; it leaves the page at the top exactly when the scroll loop and the scroll back both resolve |
| Scrolling.RejectedLoopSkipsReturn | app/api/capture/route.ts:42-68 | a rejected scroll loop skips the scroll back, so the outcome does not depend on it, the page is not at the top, and the call still resolves |
| Scrolling.ScrollDisposition | app/api/capture/route.ts:284-295 | a scroll error is rethrown unchanged unless a popup was just clicked and its message contains `Execution context was destroyed` |
| Scrolling.ScrollNeverAborts | app/api/capture/route.ts:65-68 | the rethrow branch is unreachable, so scrolling never aborts the request or a tab |
| Scrolling.DispositionDependsOnPopup | app/api/capture/route.ts:287-294 | the same context-destroyed error is tolerated after a popup click and rethrown without one |
| Scrolling.ScrollTicksBounded | app/api/capture/route.ts:43-58 | with bounded heights the in-page loop stops at the first tick whose scrolled distance reaches the height read; no earlier tick reached it |
| Scrolling.ScrollTicksGrowing | app/api/capture/route.ts:43-58 | a page that grows by less than one viewport per tick still stops, after at most the first height plus one ticks |
| Trace.SettleGatedConcat | app/api/capture/route.ts:270-282 | joining two traces in which the extended wait follows exactly the popup clicks keeps that property |
| Trace.CloseCountConcat | app/api/capture/route.ts:436-451 | close counts add up over joined traces |
| Views.PrepareView | app/api/capture/route.ts:269-295 | the extended wait is issued exactly when `closePopups` reported a click; scrolling then never fails the view; the view is at the top exactly when both scroll calls resolved |
| Views.AdaptViewport | app/api/capture/route.ts:368-378 | the width is the current width, or 1920 when it is zero; the height is the body height, else the current height, else 1080 (the first non-zero value); both are positive |
| Views.AdaptIsNotMaximum | app/api/capture/route.ts:374 | a 500-pixel body shrinks a 1080-pixel viewport, so the height is not a maximum |
| Views.CaptureView | app/api/capture/route.ts:368-392 | a shot is pushed exactly when the body query, the resize and the screenshot resolve, under the given name; the capture ends cleanly exactly when, in addition, the restore resolves, and the viewport is then the one read before adapting; a failed capture carries the fault of the first of those four calls that rejected |
| Tabs.TabLabel | app/api/capture/route.ts:306-316 | a label is the trimmed tab text, or `onglet_<i+1>` when that text is empty or unreadable; it is never empty |
| Tabs.TabLabels | app/api/capture/route.ts:306-316 | one label per tab found, in order |
| Tabs.LabelsNonEmptyAndPlaceholdersDistinct | app/api/capture/route.ts:309-313 | two placeholder labels at different positions differ, whether the tab's text was unreadable or blank |
| Tabs.RunTab | app/api/capture/route.ts:319-405 | an iteration yields a shot exactly when the re-query finds the tab, the click resolves and the capture's shot is taken; the shot is named by applying the naming function to the tab's label, which the route does with `generateFilename` |
| Tabs.TabLoop | app/api/capture/route.ts:319-406 | over all iterations, the extended wait follows exactly the popup clicks, and the loop neither launches nor closes the browser |
| Tabs.TabLoopShots | app/api/capture/route.ts:319-406 | the loop's shots are exactly those of the yielding tabs, in tab order, whatever the viewport carried between iterations |
| Tabs.ExpectedShotsBound | app/api/capture/route.ts:319-406 | there is at most one shot per tab |
| Tabs.ExpectedShotsCount | app/api/capture/route.ts:319-406 | the loop returns exactly one shot per yielding tab |
| Tabs.OneFailingTab | app/api/capture/route.ts:400-405 | with one failing tab among N, there are N-1 shots |
| Tabs.RestoringStep | app/api/capture/route.ts:373-392 | an iteration that yields and restores hands the rest of the loop the viewport it was given |
| Tabs.LoopRestoresViewport | app/api/capture/route.ts:373-392 | when every tab yields and restores, the viewport after the loop is the one before it |
| CaptureRoute.RunSession | app/api/capture/route.ts:259-434 | the page-level work succeeds exactly when every call up to the tab query resolves and, without tabs, so does every capture step; tab failures never matter; a failed session carries the fault of the first call that rejected, in the route's order (new page, initial viewport, navigation, tab query, then the direct capture's body query, resize, screenshot and restore) |
| CaptureRoute.Post | app/api/capture/route.ts:227-455 | a 400 is returned exactly for a readable body whose url is missing, empty, not a string or unparsable, and then nothing happens in the browser; a browser trace exists exactly when the request is accepted and the launch resolves, and then it starts with the launch and ends with a close; the extended wait follows exactly the popup clicks |
| CaptureRoute.Conclude | app/api/capture/route.ts:436-454 | after a session, the trace starts with the launch and ends with a close, and the extended wait still follows exactly the popup clicks; a failed session gives a 500 whose details are its error's message; a successful session gives its screenshots when the close resolves, and a 500 with the close's message when it rejects |
| CaptureRoute.ResponseAfterLaunch | app/api/capture/route.ts:436-453 | for an accepted request whose launch resolves, an error escaping the session gives a 500 with that error's message, and a successful session with a clean close gives its screenshots |
| CaptureRoute.ConcludeCloses | app/api/capture/route.ts:436-451 | the trace after launch is the launch, the session's events and one close, or two when the session succeeded and the first close rejected; the launch is never repeated; with two closes the response carries the first close's message |
| CaptureRoute.SucceedsIff | app/api/capture/route.ts:227-455 | the response holds screenshots exactly when the request is accepted, the launch resolves, the page-level work succeeds and the close resolves |
| CaptureRoute.CloseOnEveryExit | app/api/capture/route.ts:436-451 | after launch, the browser is launched once and closed once, or twice when the success path's close rejects; the response then carries that close's message |
| CaptureRoute.RejectedBeforeLaunch | app/api/capture/route.ts:235-243 | an invalid url gives a 400, with the missing-url or the invalid-url message, and no browser events |
| CaptureRoute.FailsWithoutBrowser | app/api/capture/route.ts:233-259 | an unreadable body or a failed launch gives a 500 with that error's message and nothing to close |
| CaptureRoute.TabPathShots | app/api/capture/route.ts:302-406 | on a page with tabs that closes cleanly, the response is exactly the expected per-tab shots, at most one per tab |
| CaptureRoute.DirectPathShot | app/api/capture/route.ts:407-433 | on a page without tabs that runs cleanly, the response is one shot named from the pathname alone |
| CaptureRoute.DirectRestoreFailureDropsShot | app/api/capture/route.ts:424-433 | on a page without tabs, a rejected viewport restore discards the shot already taken: the response is a 500 with that message, after one close |

## Left out

- Puppeteer internals: every awaited driver call is a scripted outcome. The
  model does not know what a real browser would return.
  - `newPage`, `goto`, `$$`, `click`, `isIntersectingViewport`, `screenshot`,
    `setViewport` and `close` are each represented only by how they resolve.
  - Launch options and the Netlify cache directory are not modelled.
- The element handles' `dispose()` calls are left out, together with their
  failure paths. Were one to reject, where it sits decides the effect:
  - in the structural pass (route.ts:133), the per-selector catch would skip
    the rest of that selector's handles;
  - inside a tab iteration's `try` (route.ts:334, 371 and 396-398), the
    iteration's catch would end that iteration, and its shot would be lost
    only when the rejection came before the screenshot was pushed;
  - in the iteration's `finally` (route.ts:404), in the label loop
    (route.ts:315) and on the path without tabs (route.ts:413), nothing
    catches it before the handler's catch, so the whole request would fail
    with a 500.
- URL parsing: `new URL` is represented by its pathname, or by `None` when it
  throws. The WHATWG URL parser itself is not modelled.
- DOM measurement: element rectangles, computed styles and the body's
  bounding box are given as data. The image-load wait in
  `waitForVisibleImages` catches its own errors, so it has no outcome in
  the model of `scrollToBottomAndLoadImages`.
- Timers: the fixed pauses are not modelled. The `setInterval` ticks of the
  scroll loop, which can overlap in the browser, become sequential ticks.
- `Views.AdaptViewport`: heights are natural numbers. The rounding of a
  fractional bounding-box height (`Math.round`) is not modelled.
- The outcomes of the network-idle waits are not modelled, because the route
  catches and ignores every one of them. The trace records only that the
  extended wait was issued.
- The outcome of the catch block's second close is not modelled, because the
  route swallows it.
- Base64 encoding, logging and the `String(error)` rendering of non-`Error`
  throws are not modelled. A fault carries its message directly.
- `JsText.Lower`: lower-cases ASCII letters only. This is weaker than
  `toLowerCase()` for the few non-ASCII letters that map into `[a-z]`, such
  as U+212A KELVIN SIGN, which maps to `k`. In file names every other
  non-ASCII character is removed by the `[a-z0-9_]` filter either way. In
  the popup scan the difference shows: a button reading `O` followed by a
  KELVIN SIGN lower-cases to `ok` in the browser and matches the vocabulary,
  where the model's text keeps the sign and matches only if another entry
  does.
- `Scrolling.ScrollTicksBounded`: does not cover a zero viewport height.
  With a zero distance the in-page loop never ends unless the page height is
  zero.
- `Scrolling.ScrollTicksGrowing`: covers only pages that grow by less than
  one viewport per tick. A page that grows faster keeps the in-page loop
  running.
- `Popups.ClosePopups`: when the textual scan's evaluation rejects, the click
  the scan had dispatched is still reported as its target. The model does
  not say whether the rejection happened before or after that click.
- `app/page.tsx` and `app/api/analyze/route.ts` are not part of this model.
  The first is user interface and fetch plumbing. The second is a thin
  wrapper over a third-party SDK.

Three facts about the route that a reader might expect otherwise:

- The adapted height is not a maximum. The route takes the first non-zero of
  the body height, the current height and 1080, so a short body shrinks the
  viewport (`Views.AdaptIsNotMaximum`).
- File names are not unique within a request. Tabs get the same name when
  their labels differ only in ASCII case (`Filenames.CaseVariantsCollide`,
  `Filenames.SameNameForDistinctTabs`), or only in the length or kind of a
  whitespace run that both have (`Filenames.WhitespaceVariantsCollide`).
  Adding or removing a run does change the name: `ab` and `a b` give `ab`
  and `a_b`. The model claims no uniqueness.
- `scrollToBottomAndLoadImages` does not always end at the top of the page:
  when the scroll loop or the scroll back rejects, the catch swallows the
  error and the page stays where it was
  (`Scrolling.RejectedLoopSkipsReturn`).

=== FILE: capture_route.dfy ===
/** The POST handler of the capture route: validate the request, launch a
    headless browser, load the page, settle it, capture either every tab or
    the whole page, and close the browser on every exit taken after launch. */
module CaptureRoute {
  import opened Outcomes
  import opened JsText
  import opened Filenames
  import opened Trace
  import opened Popups
  import opened Scrolling
  import opened Views
  import opened Tabs

  // ----- the request -----

  /** The `url` member of the JSON body. `Missing` stands for every value the
      route rejects before parsing: absent, falsy, or not a string. A `Text`
      carries the pathname that `new URL` would give it, or `None` when the
      constructor throws. */
  datatype UrlField = Missing | Text(value: string, pathname: Option<string>)

  /** The request body: either `request.json()` (or destructuring its result)
      rejects, or it yields the `url` member. */
  datatype Request = Unreadable(cause: Fault) | Json(url: UrlField)

  // ----- the response -----

  const MissingUrl := "URL manquante ou invalide dans la requ\U{00EA}te."
  const ServerFailure := "Erreur serveur lors de la capture."

  function InvalidUrl(url: string): string {
    "URL invalide fournie: \"" + url + "\""
  }

  datatype Response =
    | Screenshots(shots: seq<Shot>)
    | BadRequest(error: string)
    | ServerError(error: string, details: string)

  function Status(r: Response): (code: nat)
    ensures r.Screenshots? <==> code == 200
    ensures r.BadRequest? <==> code == 400
    ensures r.ServerError? <==> code == 500
  {
    match r
    case Screenshots(_) => 200
    case BadRequest(_) => 400
    case ServerError(_, _) => 500
  }

  /** The response and the browser-level events of one request. */
  datatype Exchange = Exchange(response: Response, events: seq<Event>)

  // ----- the browser script -----

  /** Scripted outcomes of every awaited browser call of one request, in the
      order the route makes them: launch, new page, the initial 1920x1080
      viewport, navigation, the page's popups and scroll work, the tab query
      (one text read per tab found), one script per tab iteration, the
      capture of a page without tabs, and closing the browser. */
  datatype Browser = Browser(
    launch: Done,
    newPage: Done,
    initialViewport: Done,
    goto: Done,
    popups: PopupPage,
    scroll: ScrollWork,
    tabQuery: Step<seq<Step<string>>>,
    tabs: nat -> TabScript,
    direct: CaptureScript,
    close: Done)

  /** What happens between launch and close: the shots, or the error that
      escaped to the handler's catch, and the events on the page. */
  datatype Session = Session(result: Step<seq<Shot>>, events: seq<Event>)

  /** The request is accepted for capture exactly when its url is a non-empty
      string that parses as a URL. */
  predicate Accepted(req: Request) {
    req.Json? && req.url.Text? && req.url.value != [] && req.url.pathname.Some?
  }

  /** `generateFilename(targetUrl, label)` for a URL with this pathname. */
  function ShotName(pathname: string, now: nat): string -> string {
    suffix => Filename(Some(pathname), suffix, now)
  }

  /** The page is open, sized and loaded. */
  predicate Loaded(b: Browser) {
    b.newPage.Ok? && b.initialViewport.Ok? && b.goto.Ok?
  }

  /** The tab query resolved and found no tab. */
  predicate NoTabs(b: Browser) {
    b.tabQuery.Ok? && |b.tabQuery.value| == 0
  }

  /** Everything from `newPage` to the last screenshot, for a page whose URL
      has the given pathname. */
  function RunSession(pathname: string, now: nat, b: Browser): (s: Session)
    ensures SettleGated(s.events) && NoLifecycle(s.events)
    ensures s.result.Ok? <==>
      && b.newPage.Ok? && b.initialViewport.Ok? && b.goto.Ok? && b.tabQuery.Ok?
      && (|b.tabQuery.value| == 0 ==> b.direct.body.Ok? && b.direct.adapt.Ok? && b.direct.shot.Ok? && b.direct.restore.Ok?)
    // a failed session carries the fault of the first await that rejects
    ensures b.newPage.Fail? ==> s.result == Fail(b.newPage.fault)
    ensures b.newPage.Ok? && b.initialViewport.Fail? ==> s.result == Fail(b.initialViewport.fault)
    ensures b.newPage.Ok? && b.initialViewport.Ok? && b.goto.Fail? ==> s.result == Fail(b.goto.fault)
    ensures Loaded(b) && b.tabQuery.Fail? ==> s.result == Fail(b.tabQuery.fault)
    ensures Loaded(b) && NoTabs(b) && b.direct.body.Fail? ==> s.result == Fail(b.direct.body.fault)
    ensures Loaded(b) && NoTabs(b) && b.direct.body.Ok? && b.direct.adapt.Fail? ==> s.result == Fail(b.direct.adapt.fault)
    ensures Loaded(b) && NoTabs(b) && b.direct.body.Ok? && b.direct.adapt.Ok? && b.direct.shot.Fail? ==>
      s.result == Fail(b.direct.shot.fault)
    ensures Loaded(b) && NoTabs(b) && b.direct.body.Ok? && b.direct.adapt.Ok? && b.direct.shot.Ok? && b.direct.restore.Fail? ==>
      s.result == Fail(b.direct.restore.fault)
  {
    match b.newPage
    case Fail(f) => Session(Fail(f), [])
    case Ok(_) =>
      match b.initialViewport
      case Fail(f) => Session(Fail(f), [])
      case Ok(_) =>
        match b.goto
        case Fail(f) => Session(Fail(f), [])
        case Ok(_) =>
          var p := PrepareView(b.popups, b.scroll);
          match p.disposition
          case Fail(f) => Session(Fail(f), p.events)
          case Ok(_) =>
            match b.tabQuery
            case Fail(f) => Session(Fail(f), p.events)
            case Ok(texts) =>
              if |texts| > 0 then
                var loop := TabLoop(ShotName(pathname, now), TabLabels(texts), b.tabs, 0, InitialViewport);
                SettleGatedConcat(p.events, loop.events);
                NoLifecycleConcat(p.events, loop.events);
                Session(Ok(loop.shots), p.events + loop.events)
              else
                var c := CaptureView(InitialViewport, b.direct, Filename(Some(pathname), "", now));
                SettleGatedConcat(p.events, c.events);
                NoLifecycleConcat(p.events, c.events);
                match c.fault
                case Some(f) => Session(Fail(f), p.events + c.events)
                case None => Session(Ok([c.shot.value]), p.events + c.events)
  }

  /** The handler. `now` is the clock reading the file names use. */
  function Post(req: Request, b: Browser, now: nat): (x: Exchange)
    ensures x.response.BadRequest? <==> req.Json? && !Accepted(req)
    ensures x.response.BadRequest? ==> x.events == []
    ensures x.events != [] <==> Accepted(req) && b.launch.Ok?
    ensures x.events != [] ==> x.events[0] == Launched && x.events[|x.events| - 1] == Closed
    ensures SettleGated(x.events)
  {
    match req
    case Unreadable(f) => Exchange(ServerError(ServerFailure, f.message), [])
    case Json(url) =>
      if url.Missing? || url.value == [] then Exchange(BadRequest(MissingUrl), [])
      else
        match url.pathname
        case None => Exchange(BadRequest(InvalidUrl(url.value)), [])
        case Some(pathname) =>
          match b.launch
          case Fail(f) => Exchange(ServerError(ServerFailure, f.message), [])
          case Ok(_) => Conclude(RunSession(pathname, now, b), b.close)
  }

  /** The handler once the browser exists and the session `s` has run. A
      session that fails is closed in the catch; a session that succeeds is
      closed in the try, and when that close rejects, the catch closes once
      more, ignoring the outcome, and reports the first close's error. */
  function Conclude(s: Session, close: Done): (x: Exchange)
    requires SettleGated(s.events)
    ensures |x.events| >= 2 && x.events[0] == Launched && x.events[|x.events| - 1] == Closed
    ensures SettleGated(x.events)
    ensures s.result.Fail? ==> x.response == ServerError(ServerFailure, s.result.fault.message)
    ensures s.result.Ok? && close.Ok? ==> x.response == Screenshots(s.result.value)
    ensures s.result.Ok? && close.Fail? ==> x.response == ServerError(ServerFailure, close.fault.message)
  {
    var started := [Launched] + s.events;
    SettleGatedConcat([Launched], s.events);
    SettleGatedConcat(started, [Closed]);
    match s.result
    case Fail(f) => Exchange(ServerError(ServerFailure, f.message), started + [Closed])
    case Ok(shots) =>
      match close
      case Ok(_) => Exchange(Screenshots(shots), started + [Closed])
      case Fail(f) =>
        SettleGatedConcat(started + [Closed], [Closed]);
        Exchange(ServerError(ServerFailure, f.message), started + [Closed] + [Closed])
  }

  // ----- properties of the handler -----

  /** After launch, an error escaping the session gives a 500 whose details
      are that error's message, and a session that succeeds and closes cleanly
      gives its screenshots. */
  lemma ResponseAfterLaunch(req: Request, b: Browser, now: nat)
    requires Accepted(req) && b.launch.Ok?
    ensures RunSession(PathnameOf(req), now, b).result.Fail? ==>
      Post(req, b, now).response == ServerError(ServerFailure, RunSession(PathnameOf(req), now, b).result.fault.message)
    ensures RunSession(PathnameOf(req), now, b).result.Ok? && b.close.Ok? ==>
      Post(req, b, now).response == Screenshots(RunSession(PathnameOf(req), now, b).result.value)
  {
  }

  /** The pathname of an accepted request's URL. */
  function PathnameOf(req: Request): string
    requires Accepted(req)
  {
    req.url.pathname.value
  }

  /** What the page-level script must do for the request to succeed: every
      call up to the tab query resolves and, on a page without tabs, so does
      every step of the one capture. Nothing about the tab iterations matters. */
  predicate SessionSucceeds(b: Browser) {
    && b.newPage.Ok? && b.initialViewport.Ok? && b.goto.Ok? && b.tabQuery.Ok?
    && (|b.tabQuery.value| == 0 ==> b.direct.body.Ok? && b.direct.adapt.Ok? && b.direct.shot.Ok? && b.direct.restore.Ok?)
  }

  /** The handler answers 200 exactly when the request is accepted, the
      browser launches, the session succeeds and the browser closes. */
  lemma SucceedsIff(req: Request, b: Browser, now: nat)
    ensures Post(req, b, now).response.Screenshots? <==>
      Accepted(req) && b.launch.Ok? && SessionSucceeds(b) && b.close.Ok?
  {
    if Accepted(req) && b.launch.Ok? {
      var s := RunSession(PathnameOf(req), now, b);
      assert s.result.Ok? <==> SessionSucceeds(b);
    }
  }

  /** Once the browser is launched, every exit closes it: the trace starts
      with the one launch and ends with a close; there is one close, or two
      when the closing call of the success path rejected, and then the
      response is a server error carrying that call's message. */
  lemma CloseOnEveryExit(req: Request, b: Browser, now: nat)
    requires Accepted(req) && b.launch.Ok?
    ensures var x := Post(req, b, now);
      && x.events[0] == Launched
      && (forall j :: 0 < j < |x.events| ==> !x.events[j].Launched?)
      && x.events[|x.events| - 1] == Closed
      && 1 <= CloseCount(x.events) <= 2
      && (CloseCount(x.events) == 2 <==> SessionSucceeds(b) && b.close.Fail?)
      && (CloseCount(x.events) == 2 ==> x.response == ServerError(ServerFailure, b.close.fault.message))
  {
    ConcludeCloses(RunSession(PathnameOf(req), now, b), b.close);
  }

  /** The closing calls made after a session: one, or two when the session
      succeeded and the first close rejected. */
  function Closes(s: Session, close: Done): (c: seq<Event>)
    ensures 1 <= |c| <= 2
    ensures forall j :: 0 <= j < |c| ==> c[j] == Closed
  {
    if s.result.Ok? && close.Fail? then [Closed, Closed] else [Closed]
  }

  /** A trace made of the launch, a fragment without lifecycle events and
      only closes has its one launch first and as many closes as it ends with. */
  lemma LifecycleShape(middle: seq<Event>, closes: seq<Event>)
    requires NoLifecycle(middle)
    requires forall j :: 0 <= j < |closes| ==> closes[j] == Closed
    ensures var t := [Launched] + middle + closes;
      && t[0] == Launched
      && (forall j :: 0 < j < |t| ==> !t[j].Launched?)
      && CloseCount(t) == |closes|
  {
    var started := [Launched] + middle;
    var t := started + closes;
    NoLifecycleNoClose(middle);
    CloseCountConcat([Launched], middle);
    CloseCountConcat(started, closes);
    AllClosed(closes);
    forall j | 0 < j < |t|
      ensures !t[j].Launched?
    {
      if j < |started| {
        assert t[j] == middle[j - 1];
      } else {
        assert t[j] == closes[j - |started|];
      }
    }
  }

  lemma {:induction false} AllClosed(closes: seq<Event>)
    requires forall j :: 0 <= j < |closes| ==> closes[j] == Closed
    ensures CloseCount(closes) == |closes|
    decreases |closes|
  {
    if |closes| > 0 {
      AllClosed(closes[..|closes| - 1]);
    }
  }

  /** The trace of a concluded session and how many closes it holds. */
  lemma ConcludeCloses(s: Session, close: Done)
    requires SettleGated(s.events) && NoLifecycle(s.events)
    ensures var x := Conclude(s, close);
      && x.events == [Launched] + s.events + Closes(s, close)
      && x.events[0] == Launched
      && (forall j :: 0 < j < |x.events| ==> !x.events[j].Launched?)
      && 1 <= CloseCount(x.events) <= 2
      && (CloseCount(x.events) == 2 <==> s.result.Ok? && close.Fail?)
      && (CloseCount(x.events) == 2 ==> x.response == ServerError(ServerFailure, close.fault.message))
  {
    LifecycleShape(s.events, Closes(s, close));
  }

  /** A request that is not accepted gets a 400 and never launches a browser;
      its message says whether the url was missing or did not parse. */
  lemma RejectedBeforeLaunch(req: Request, b: Browser, now: nat)
    requires req.Json? && !Accepted(req)
    ensures Post(req, b, now).events == []
    ensures Status(Post(req, b, now).response) == 400
    ensures req.url.Missing? || req.url.value == [] ==> Post(req, b, now).response == BadRequest(MissingUrl)
    ensures req.url.Text? && req.url.value != [] ==> Post(req, b, now).response == BadRequest(InvalidUrl(req.url.value))
  {
  }

  /** An unreadable body, or a browser that cannot be launched, gives a 500
      with the error's message and nothing to close. */
  lemma FailsWithoutBrowser(req: Request, b: Browser, now: nat)
    requires req.Unreadable? || (Accepted(req) && b.launch.Fail?)
    ensures Post(req, b, now).events == []
    ensures Post(req, b, now).response
         == ServerError(ServerFailure, if req.Unreadable? then req.cause.message else b.launch.fault.message)
  {
  }

  /** On a page with tabs that closes cleanly, the response holds exactly the
      shots of the tabs whose iteration yields, named after their labels, in
      tab order, and at most one per tab: a failing tab never fails the
      request. */
  lemma {:induction false} TabPathShots(req: Request, b: Browser, now: nat)
    requires Accepted(req) && b.launch.Ok? && b.close.Ok?
    requires b.newPage.Ok? && b.initialViewport.Ok? && b.goto.Ok?
    requires b.tabQuery.Ok? && |b.tabQuery.value| > 0
    ensures var labels := TabLabels(b.tabQuery.value);
      && Post(req, b, now).response == Screenshots(ExpectedShots(ShotName(PathnameOf(req), now), labels, b.tabs, 0))
      && |Post(req, b, now).response.shots| <= |b.tabQuery.value|
  {
    var labels := TabLabels(b.tabQuery.value);
    var name := ShotName(PathnameOf(req), now);
    TabLoopShots(name, labels, b.tabs, 0, InitialViewport);
    ExpectedShotsBound(name, labels, b.tabs, 0);
  }

  /** On a page without tabs, a clean run returns one shot named from the
      pathname alone. */
  lemma DirectPathShot(req: Request, b: Browser, now: nat)
    requires Accepted(req) && b.launch.Ok? && b.close.Ok?
    requires SessionSucceeds(b) && |b.tabQuery.value| == 0
    ensures Post(req, b, now).response == Screenshots([Shot(Filename(Some(PathnameOf(req)), "", now), b.direct.shot.value)])
  {
  }

  /** On a page without tabs, a rejected restore of the viewport after the
      screenshot discards that screenshot: the request fails with the
      restore's message. */
  lemma DirectRestoreFailureDropsShot(req: Request, b: Browser, now: nat)
    requires Accepted(req) && b.launch.Ok?
    requires b.newPage.Ok? && b.initialViewport.Ok? && b.goto.Ok? && b.tabQuery.Ok? && |b.tabQuery.value| == 0
    requires b.direct.body.Ok? && b.direct.adapt.Ok? && b.direct.shot.Ok? && b.direct.restore.Fail?
    ensures Post(req, b, now).response == ServerError(ServerFailure, b.direct.restore.fault.message)
    ensures CloseCount(Post(req, b, now).events) == 1
  {
    CloseOnEveryExit(req, b, now);
  }
}

=== FILE: filenames.dfy ===
/** `generateFilename` of the capture route: the name under which one
    screenshot is returned, derived from the target's URL path and an optional
    view suffix (a tab's text). */
module Filenames {
  import opened Outcomes
  import opened JsText

  const PngExtension := ".png"
  /** Stem used when the URL cannot be parsed. */
  const FallbackStem := "capture"
  /** Stem used when the path is empty once its edge slashes are removed. */
  const EmptyPathStem := "home"
  /** Longest suffix part kept in a name. */
  const MaxLabelLength := 50

  /** `[a-zA-Z0-9_]`, the characters a path stem keeps. */
  predicate IsNameChar(c: char) {
    'a' <= c <= 'z' || 'A' <= c <= 'Z' || '0' <= c <= '9' || c == '_'
  }

  /** `[a-z0-9_]`, the characters a sanitised suffix keeps. */
  predicate IsLabelChar(c: char) {
    'a' <= c <= 'z' || '0' <= c <= '9' || c == '_'
  }

  predicate AllNameChars(s: string) {
    forall i :: 0 <= i < |s| ==> IsNameChar(s[i])
  }

  /** `s.replace(/[^…]/g, '')`: the characters of `s` that `keep` accepts, in
      their original order. */
  function Filter(keep: char -> bool, s: string): (r: string)
    ensures |r| <= |s|
    ensures forall i :: 0 <= i < |r| ==> keep(r[i])
  {
    if |s| == 0 then []
    else (if keep(s[0]) then [s[0]] else []) + Filter(keep, s[1..])
  }

  /** Filtering works character by character: it distributes over
      concatenation, ... */
  lemma {:induction false} FilterConcat(keep: char -> bool, a: string, b: string)
    ensures Filter(keep, a + b) == Filter(keep, a) + Filter(keep, b)
    decreases |a|
  {
    if |a| > 0 {
      assert (a + b)[0] == a[0];
      assert (a + b)[1..] == a[1..] + b;
      FilterConcat(keep, a[1..], b);
    } else {
      assert a + b == b;
    }
  }

  /** ... keeps a string whose every character is accepted, ... */
  lemma {:induction false} FilterKeepsAccepted(keep: char -> bool, s: string)
    requires forall i :: 0 <= i < |s| ==> keep(s[i])
    ensures Filter(keep, s) == s
    decreases |s|
  {
    if |s| > 0 {
      FilterKeepsAccepted(keep, s[1..]);
    }
  }

  /** ... and drops a string none of whose characters is accepted. */
  lemma {:induction false} FilterDropsRejected(keep: char -> bool, s: string)
    requires forall i :: 0 <= i < |s| ==> !keep(s[i])
    ensures Filter(keep, s) == []
    decreases |s|
  {
    if |s| > 0 {
      FilterDropsRejected(keep, s[1..]);
    }
  }

  /** `s.replace(/\s+/g, '_')`: every maximal run of whitespace becomes one '_'. */
  function CollapseSpaces(s: string): (r: string)
    ensures NoSpace(r)
    ensures |r| <= |s|
    decreases |s|
  {
    if |s| == 0 then []
    else if IsSpace(s[0]) then "_" + CollapseSpaces(TrimStart(s))
    else [s[0]] + CollapseSpaces(s[1..])
  }

  /** A string without whitespace is left alone. */
  lemma {:induction false} CollapseUnchanged(s: string)
    requires NoSpace(s)
    ensures CollapseSpaces(s) == s
    decreases |s|
  {
    if |s| > 0 {
      CollapseUnchanged(s[1..]);
    }
  }

  /** A non-empty run of whitespace becomes exactly one '_'. */
  lemma CollapseRun(s: string)
    requires |s| > 0 && AllSpace(s)
    ensures CollapseSpaces(s) == "_"
  {
    TrimStartOfSpaces(s);
  }

  lemma {:induction false} TrimStartOfSpaces(s: string)
    requires AllSpace(s)
    ensures TrimStart(s) == []
    decreases |s|
  {
    if |s| > 0 {
      TrimStartOfSpaces(s[1..]);
    }
  }

  lemma {:induction false} TrimStartConcat(a: string, b: string)
    requires !AllSpace(a)
    ensures TrimStart(a + b) == TrimStart(a) + b
    decreases |a|
  {
    assert |a| > 0;
    if IsSpace(a[0]) {
      assert (a + b)[1..] == a[1..] + b;
      assert !AllSpace(a[1..]) by {
        var i :| 0 <= i < |a| && !IsSpace(a[i]);
        assert i > 0 && a[1..][i - 1] == a[i];
      }
      TrimStartConcat(a[1..], b);
    }
  }

  /** A whitespace run followed by text that does not start with whitespace
      becomes one '_' before the collapsed text. */
  lemma CollapseRunBeforeText(r: string, t: string)
    requires |r| > 0 && AllSpace(r)
    requires |t| > 0 ==> !IsSpace(t[0])
    ensures CollapseSpaces(r + t) == "_" + CollapseSpaces(t)
  {
    assert (r + t)[0] == r[0];
    TrimStartOfRun(r, t);
    CollapseSpaceHead(r + t);
  }

  lemma {:induction false} TrimStartOfRun(r: string, t: string)
    requires AllSpace(r)
    requires |t| > 0 ==> !IsSpace(t[0])
    ensures TrimStart(r + t) == t
    decreases |r|
  {
    if |r| > 0 {
      assert (r + t)[0] == r[0];
      assert (r + t)[1..] == r[1..] + t;
      TrimStartOfRun(r[1..], t);
    } else {
      assert r + t == t;
    }
  }

  /** Collapsing is local: cutting a string right after a character that is
      not whitespace, collapsing the two parts and joining them gives the
      collapsed whole. Every string is a sequence of pieces, each an optional
      whitespace run followed by non-whitespace text, then a final optional
      run; this lemma cuts between the pieces, CollapseRunBeforeText and
      CollapseUnchanged collapse each piece, and CollapseRun the final run,
      so together they determine the function. */
  lemma {:induction false} CollapseConcat(a: string, b: string)
    requires |a| > 0 && !IsSpace(a[|a| - 1])
    ensures CollapseSpaces(a + b) == CollapseSpaces(a) + CollapseSpaces(b)
    decreases |a|, 1
  {
    if IsSpace(a[0]) {
      CollapseConcatSpace(a, b);
    } else {
      CollapseConcatChar(a, b);
    }
  }

  /** The step of `CollapseConcat` when `a` starts with whitespace. */
  lemma {:induction false} CollapseConcatSpace(a: string, b: string)
    requires |a| > 0 && !IsSpace(a[|a| - 1]) && IsSpace(a[0])
    ensures CollapseSpaces(a + b) == CollapseSpaces(a) + CollapseSpaces(b)
    decreases |a|, 0
  {
    var ab := a + b;
    assert ab[0] == a[0];
    var t := TrimStartKeepsLast(a);
    TrimStartConcat(a, b);
    CollapseSpaceHead(ab);
    CollapseSpaceHead(a);
    CollapseConcat(t, b);
    ConcatAssoc("_", CollapseSpaces(t), CollapseSpaces(b));
  }

  /** The step of `CollapseConcat` when `a` starts with another character. */
  lemma {:induction false} CollapseConcatChar(a: string, b: string)
    requires |a| > 0 && !IsSpace(a[|a| - 1]) && !IsSpace(a[0])
    ensures CollapseSpaces(a + b) == CollapseSpaces(a) + CollapseSpaces(b)
    decreases |a|, 0
  {
    var ab := a + b;
    assert ab[0] == a[0];
    assert ab[1..] == a[1..] + b;
    CollapseCharHead(ab);
    CollapseCharHead(a);
    if |a| > 1 {
      CollapseConcat(a[1..], b);
      ConcatAssoc([a[0]], CollapseSpaces(a[1..]), CollapseSpaces(b));
    } else {
      assert a[1..] == [];
    }
  }

  /** When the last character is not whitespace, neither is the last character
      left after trimming the start. */
  lemma TrimStartKeepsLast(a: string) returns (t: string)
    requires |a| > 0 && !IsSpace(a[|a| - 1])
    ensures t == TrimStart(a) && |t| > 0 && !IsSpace(t[|t| - 1]) && !AllSpace(a)
    ensures IsSpace(a[0]) ==> |t| < |a|
  {
    t := TrimStart(a);
    assert !AllSpace(a) by {
      assert !IsSpace(a[|a| - 1]);
    }
    if |t| == 0 {
      assert false;
    }
  }

  lemma ConcatAssoc(p: string, q: string, r: string)
    ensures p + (q + r) == (p + q) + r
  {
  }

  lemma CollapseSpaceHead(s: string)
    requires |s| > 0 && IsSpace(s[0])
    ensures CollapseSpaces(s) == "_" + CollapseSpaces(TrimStart(s))
  {
  }

  lemma CollapseCharHead(s: string)
    requires |s| > 0 && !IsSpace(s[0])
    ensures CollapseSpaces(s) == [s[0]] + CollapseSpaces(s[1..])
  {
  }

  /** `replace(/^\/|\/$/g, '')` removes one '/' at the start and one at the end. */
  function LeadingSlash(p: string): nat {
    if |p| > 0 && p[0] == '/' then 1 else 0
  }

  function StripEdgeSlashes(p: string): (r: string)
    ensures |p| - 2 <= |r| <= |p|
    ensures LeadingSlash(p) + |r| <= |p|
    ensures r == p[LeadingSlash(p)..LeadingSlash(p) + |r|]
    ensures forall k :: 0 <= k < |p| && !(LeadingSlash(p) <= k < LeadingSlash(p) + |r|) ==> p[k] == '/'
    ensures |r| == |p| - LeadingSlash(p) - (if |p| > LeadingSlash(p) && p[|p| - 1] == '/' then 1 else 0)
  {
    var rest := p[LeadingSlash(p)..];
    if |rest| > 0 && rest[|rest| - 1] == '/' then rest[..|rest| - 1] else rest
  }

  /** Wrapping a path in slashes and stripping them recovers it. */
  lemma StripWrapped(core: string)
    ensures StripEdgeSlashes("/" + core + "/") == core
  {
    var p := "/" + core + "/";
    assert p[1..] == core + "/";
  }

  /** Only one slash is stripped at each end, so '//' strips to the empty path. */
  lemma StripOnlyOnce(core: string)
    ensures StripEdgeSlashes("//" + core + "//") == "/" + core + "/"
  {
    var p := "//" + core + "//";
    assert p[1..] == "/" + core + "/" + "/";
  }

  /** `replace(/\//g, '_')`. */
  function SlashesToUnderscores(s: string): (r: string)
    ensures |r| == |s|
    ensures forall i :: 0 <= i < |s| ==> r[i] == (if s[i] == '/' then '_' else s[i])
  {
    seq(|s|, i requires 0 <= i < |s| => if s[i] == '/' then '_' else s[i])
  }

  /** The part of a name derived from the URL path. The 'home' test comes
      before the character filter, so a path of only dropped characters gives
      an empty stem rather than 'home'. */
  function PathStem(pathname: string): (r: string)
    ensures AllNameChars(r)
    ensures |r| <= |pathname| || r == EmptyPathStem
    ensures StripEdgeSlashes(pathname) == [] ==> r == EmptyPathStem
  {
    var path := SlashesToUnderscores(StripEdgeSlashes(pathname));
    if path == [] then
      FilterKeepsAccepted(IsNameChar, EmptyPathStem);
      EmptyPathStem
    else
      Filter(IsNameChar, path)
  }

  /** A path that is non-empty once its edge slashes are stripped, and holds
      only name characters and slashes, loses nothing to the filter: the stem
      is that path with '_' for '/'. */
  lemma NamePathStem(pathname: string)
    requires StripEdgeSlashes(pathname) != []
    requires forall k :: 0 <= k < |StripEdgeSlashes(pathname)| ==>
      IsNameChar(StripEdgeSlashes(pathname)[k]) || StripEdgeSlashes(pathname)[k] == '/'
    ensures PathStem(pathname) == SlashesToUnderscores(StripEdgeSlashes(pathname))
  {
    FilterKeepsAccepted(IsNameChar, SlashesToUnderscores(StripEdgeSlashes(pathname)));
  }

  /** A name character or '/', the characters a stripped path keeps. */
  predicate IsPathChar(c: char) {
    IsNameChar(c) || c == '/'
  }

  /** For every path that is non-empty once its edge slashes are stripped,
      the stem is that path with every character other than a name character
      or '/' dropped, then '_' for '/'. */
  lemma StemIsFilteredPath(pathname: string)
    requires StripEdgeSlashes(pathname) != []
    ensures PathStem(pathname) == SlashesToUnderscores(Filter(IsPathChar, StripEdgeSlashes(pathname)))
  {
    FilterAfterMap(StripEdgeSlashes(pathname));
  }

  /** Filtering name characters after the slash map is the slash map after
      filtering path characters. */
  lemma {:induction false} FilterAfterMap(q: string)
    ensures Filter(IsNameChar, SlashesToUnderscores(q)) == SlashesToUnderscores(Filter(IsPathChar, q))
    decreases |q|
  {
    if |q| > 0 {
      var m := SlashesToUnderscores(q);
      assert m[1..] == SlashesToUnderscores(q[1..]);
      FilterAfterMap(q[1..]);
      var head: string := if IsPathChar(q[0]) then [q[0]] else [];
      SlashesConcat(head, Filter(IsPathChar, q[1..]));
      assert SlashesToUnderscores(head) == (if IsNameChar(m[0]) then [m[0]] else []);
    }
  }

  lemma SlashesConcat(a: string, b: string)
    ensures SlashesToUnderscores(a + b) == SlashesToUnderscores(a) + SlashesToUnderscores(b)
  {
    var l, r := SlashesToUnderscores(a + b), SlashesToUnderscores(a) + SlashesToUnderscores(b);
    forall k | 0 <= k < |l|
      ensures l[k] == r[k]
    {
      if k >= |a| {
        assert (a + b)[k] == b[k - |a|];
      }
    }
  }

  /** A path of name-character segments gives those segments joined by '_'. */
  lemma PathOfSegments(first: string, second: string)
    requires |first| > 0 && |second| > 0
    requires AllNameChars(first) && AllNameChars(second)
    ensures PathStem("/" + first + "/" + second) == first + "_" + second
  {
    var inner := first + "/" + second;
    StripLeadingOnly(inner);
    assert "/" + first + "/" + second == "/" + inner;
    SegmentsToUnderscores(first, second);
    var joined := SlashesToUnderscores(inner);
    AllNameCharsConcat(first, "_");
    AllNameCharsConcat(first + "_", second);
    FilterKeepsAccepted(IsNameChar, joined);
  }

  /** A path that starts with '/' and ends with a name character loses only
      its leading '/'. */
  lemma StripLeadingOnly(inner: string)
    requires |inner| > 0 && inner[|inner| - 1] != '/'
    ensures StripEdgeSlashes("/" + inner) == inner
  {
    assert ("/" + inner)[1..] == inner;
  }

  lemma SegmentsToUnderscores(first: string, second: string)
    requires AllNameChars(first) && AllNameChars(second)
    ensures SlashesToUnderscores(first + "/" + second) == first + "_" + second
  {
    var p, q := first + "/" + second, first + "_" + second;
    forall k | 0 <= k < |p|
      ensures SlashesToUnderscores(p)[k] == q[k]
    {
      if k < |first| {
        assert p[k] == first[k] && q[k] == first[k];
      } else if k == |first| {
        assert p[k] == '/' && q[k] == '_';
      } else {
        assert p[k] == second[k - |first| - 1] && q[k] == second[k - |first| - 1];
      }
    }
  }

  /** The suffix after case folding, whitespace collapsing and filtering. */
  function SanitizeLabel(suffix: string): (r: string)
    ensures forall i :: 0 <= i < |r| ==> IsLabelChar(r[i])
    ensures |r| <= |suffix|
  {
    Filter(IsLabelChar, CollapseSpaces(Lower(suffix)))
  }

  /** A sanitised suffix is its own sanitisation. */
  lemma SanitizeIdempotent(suffix: string)
    ensures SanitizeLabel(SanitizeLabel(suffix)) == SanitizeLabel(suffix)
  {
    var s := SanitizeLabel(suffix);
    LowerUnchanged(s);
    CollapseUnchanged(s);
    FilterKeepsAccepted(IsLabelChar, s);
  }

  /** Labels that differ only in ASCII case give the same sanitised suffix. */
  lemma SanitizeIgnoresCase(suffix: string)
    ensures SanitizeLabel(Lower(suffix)) == SanitizeLabel(suffix)
  {
    LowerIdempotent(suffix);
  }

  /** `safeSuffix.substring(0, 50)`. */
  function LabelPart(suffix: string): (r: string)
    ensures |r| <= MaxLabelLength && |r| <= |SanitizeLabel(suffix)|
    ensures r == SanitizeLabel(suffix)[..|r|]
    ensures |r| < MaxLabelLength ==> r == SanitizeLabel(suffix)
  {
    var safe := SanitizeLabel(suffix);
    if |safe| <= MaxLabelLength then safe else safe[..MaxLabelLength]
  }

  /** '_' followed by the suffix part, or nothing when that part is empty. */
  function LabelTail(suffix: string): string {
    var part := LabelPart(suffix);
    if part == [] then [] else "_" + part
  }

  lemma AllNameCharsConcat(a: string, b: string)
    requires AllNameChars(a) && AllNameChars(b)
    ensures AllNameChars(a + b)
  {
    forall i | 0 <= i < |a + b|
      ensures IsNameChar((a + b)[i])
    {
      if i >= |a| {
        assert (a + b)[i] == b[i - |a|];
      }
    }
  }

  /** '_' followed by a label part is made of name characters. */
  lemma LabelTailNameChars(suffix: string)
    ensures AllNameChars(LabelTail(suffix))
  {
    var part := LabelPart(suffix);
    if part != [] {
      assert AllNameChars(part) by {
        forall i | 0 <= i < |part|
          ensures IsNameChar(part[i])
        {
          assert part[i] == SanitizeLabel(suffix)[i];
        }
      }
      AllNameCharsConcat("_", part);
    }
  }

  /** The name without its extension. On the success path it is the path stem
      followed by the label tail; when `new URL` rejects the address it is
      'capture', the label tail, '_' and the clock reading. */
  function NameStem(pathname: Option<string>, suffix: string, now: nat): (r: string)
    ensures AllNameChars(r)
  {
    match pathname
    case Some(p) => ParsedStem(p, suffix)
    case None => FallbackName(suffix, now)
  }

  function ParsedStem(pathname: string, suffix: string): (r: string)
    ensures AllNameChars(r)
  {
    LabelTailNameChars(suffix);
    AllNameCharsConcat(PathStem(pathname), LabelTail(suffix));
    PathStem(pathname) + LabelTail(suffix)
  }

  /** The catch branch. It tests the untruncated sanitised label for
      emptiness and truncates when appending; `FallbackTailIsLabelTail` shows
      this is the same tail the success path appends. */
  function FallbackName(suffix: string, now: nat): (r: string)
    ensures AllNameChars(r)
    ensures StartsWith(r, FallbackStem)
    ensures EndsWith(r, "_" + Decimal(now))
  {
    FallbackParts(FallbackStem + LabelTail(suffix), "_" + Decimal(now), suffix, now);
    FallbackStem + LabelTail(suffix) + ("_" + Decimal(now))
  }

  lemma FallbackParts(head: string, stamp: string, suffix: string, now: nat)
    requires head == FallbackStem + LabelTail(suffix) && stamp == "_" + Decimal(now)
    ensures AllNameChars(head + stamp) && StartsWith(head + stamp, FallbackStem) && EndsWith(head + stamp, stamp)
  {
    LabelTailNameChars(suffix);
    FallbackStemNameChars();
    AllNameCharsConcat(FallbackStem, LabelTail(suffix));
    StampNameChars(now);
    AllNameCharsConcat(head, stamp);
    StartsWithOwnPrefix(FallbackStem, LabelTail(suffix));
    StartsWithConcat(head, stamp, FallbackStem);
    EndsWithOwnSuffix(head, stamp);
  }

  lemma FallbackStemNameChars()
    ensures AllNameChars(FallbackStem)
  {
    assert forall i :: 0 <= i < |FallbackStem| ==> 'a' <= FallbackStem[i] <= 'z';
  }

  /** '_' and a clock reading are name characters. */
  lemma StampNameChars(now: nat)
    ensures AllNameChars("_" + Decimal(now))
  {
    var d := Decimal(now);
    forall i | 0 <= i < |"_" + d|
      ensures IsNameChar(("_" + d)[i])
    {
      if i > 0 {
        assert ("_" + d)[i] == d[i - 1];
        assert IsDigit(d[i - 1]);
      }
    }
  }

  lemma FallbackTailIsLabelTail(suffix: string)
    ensures LabelTail(suffix) ==
      var safe := SanitizeLabel(suffix);
      if safe != [] then "_" + safe[..if |safe| <= MaxLabelLength then |safe| else MaxLabelLength] else []
  {
  }

  /** `generateFilename(url, suffix)`. `pathname` is the path of the parsed URL,
      or `None` when `new URL` rejects it; `now` is `Date.now()`. The result is
      always some name characters followed by '.png'; when the URL is rejected it
      starts with 'capture' and ends with '_', the clock reading and '.png'. */
  function Filename(pathname: Option<string>, suffix: string, now: nat): (r: string)
    ensures EndsWith(r, PngExtension)
    ensures AllNameChars(r[..|r| - |PngExtension|])
    ensures pathname.None? ==> StartsWith(r, FallbackStem)
    ensures pathname.None? ==> EndsWith(r, "_" + Decimal(now) + PngExtension)
  {
    var stem := NameStem(pathname, suffix, now);
    var r := stem + PngExtension;
    assert r[..|stem|] == stem;
    assert r[|stem|..] == PngExtension;
    if pathname.None? then
      StartsWithConcat(stem, PngExtension, FallbackStem);
      EndsWithConcat(stem, PngExtension, "_" + Decimal(now));
      r
    else
      r
  }

  /** Both branches sanitise and truncate the suffix the same way. */
  lemma FallbackSharesLabelTail(suffix: string, now: nat)
    ensures Filename(None, suffix, now) == FallbackStem + LabelTail(suffix) + "_" + Decimal(now) + PngExtension
  {
    LabelTailNameChars(suffix);
  }

  /** A suffix whose sanitisation is empty contributes nothing, not even '_'. */
  lemma EmptyLabelAddsNothing(pathname: Option<string>, suffix: string, now: nat)
    requires SanitizeLabel(suffix) == []
    ensures Filename(pathname, suffix, now) == Filename(pathname, "", now)
  {
  }

  /** On the success path a non-empty suffix part sits between '_' and '.png',
      and the name is never longer than the stem plus 55 characters. */
  lemma LabelAtEnd(pathname: string, suffix: string, now: nat)
    ensures var r := Filename(Some(pathname), suffix, now);
      && |r| <= |PathStem(pathname)| + 1 + MaxLabelLength + |PngExtension|
      && (LabelPart(suffix) != [] ==> EndsWith(r, "_" + LabelPart(suffix) + PngExtension))
  {
    ParsedFilename(pathname, suffix, now);
    var stem, tail := PathStem(pathname), LabelTail(suffix);
    ConcatAssoc(stem, tail, PngExtension);
    EndsWithOwnSuffix(stem, tail + PngExtension);
  }

  /** Tab labels that differ only in ASCII case produce the same name: the
      route does not keep names unique. */
  lemma CaseVariantsCollide(pathname: Option<string>, suffix: string, now: nat)
    ensures Filename(pathname, Lower(suffix), now) == Filename(pathname, suffix, now)
  {
    SanitizeIgnoresCase(suffix);
  }

  /** An interior whitespace run of the suffix becomes one '_' between the
      sanitised texts on either side. */
  lemma SanitizeJoinRun(a: string, r: string, b: string)
    requires |r| > 0 && AllSpace(r)
    requires |a| > 0 ==> !IsSpace(a[|a| - 1])
    requires |b| > 0 ==> !IsSpace(b[0])
    ensures SanitizeLabel(a + r + b) == SanitizeLabel(a) + "_" + SanitizeLabel(b)
  {
    var ca, cb := CollapseSpaces(Lower(a)), CollapseSpaces(Lower(b));
    CollapseAroundRun(a, r, b);
    FilterAroundUnderscore(ca, cb);
  }

  /** The label filter keeps a '_' between two texts. */
  lemma FilterAroundUnderscore(x: string, y: string)
    ensures Filter(IsLabelChar, x + ("_" + y)) == Filter(IsLabelChar, x) + "_" + Filter(IsLabelChar, y)
  {
    FilterConcat(IsLabelChar, x, "_" + y);
    FilterConcat(IsLabelChar, "_", y);
    FilterKeepsAccepted(IsLabelChar, "_");
  }

  /** Tab labels that differ only in the length or kind of one whitespace run
      (present in both) sanitise alike. */
  lemma SanitizeIgnoresRunShape(a: string, r1: string, r2: string, b: string)
    requires |r1| > 0 && AllSpace(r1) && |r2| > 0 && AllSpace(r2)
    requires |a| > 0 ==> !IsSpace(a[|a| - 1])
    requires |b| > 0 ==> !IsSpace(b[0])
    ensures SanitizeLabel(a + r1 + b) == SanitizeLabel(a + r2 + b)
  {
    CollapseAroundRun(a, r1, b);
    CollapseAroundRun(a, r2, b);
  }

  /** Lower-casing and collapsing `a + r + b` gives the same result for every
      whitespace run `r` between `a` and `b`. */
  lemma CollapseAroundRun(a: string, r: string, b: string)
    requires |r| > 0 && AllSpace(r)
    requires |a| > 0 ==> !IsSpace(a[|a| - 1])
    requires |b| > 0 ==> !IsSpace(b[0])
    ensures CollapseSpaces(Lower(a + r + b)) == CollapseSpaces(Lower(a)) + ("_" + CollapseSpaces(Lower(b)))
  {
    LowerAroundRun(a, r, b);
    LowerKeepsEnds(a);
    LowerKeepsEnds(b);
    CollapseJoinRun(Lower(a), r, Lower(b));
  }

  /** A whitespace run between two texts that do not touch it with
      whitespace becomes one '_' between their collapsed forms. */
  lemma CollapseJoinRun(a: string, r: string, b: string)
    requires |r| > 0 && AllSpace(r)
    requires |a| > 0 ==> !IsSpace(a[|a| - 1])
    requires |b| > 0 ==> !IsSpace(b[0])
    ensures CollapseSpaces(a + (r + b)) == CollapseSpaces(a) + ("_" + CollapseSpaces(b))
  {
    CollapseRunBeforeText(r, b);
    if |a| > 0 {
      CollapseConcat(a, r + b);
    } else {
      assert a + (r + b) == r + b;
    }
  }

  /** Lower-casing leaves a whitespace run alone and works piece by piece. */
  lemma LowerAroundRun(a: string, r: string, b: string)
    requires AllSpace(r)
    ensures Lower(a + r + b) == Lower(a) + (r + Lower(b))
  {
    var s, t := a + r + b, Lower(a) + (r + Lower(b));
    forall k | 0 <= k < |s|
      ensures Lower(s)[k] == t[k]
    {
      if k < |a| {
        assert s[k] == a[k];
      } else if k < |a| + |r| {
        assert s[k] == r[k - |a|];
      } else {
        assert s[k] == b[k - |a| - |r|];
      }
    }
  }

  /** Lower-casing never turns a character into whitespace. */
  lemma LowerKeepsEnds(s: string)
    ensures |s| > 0 && !IsSpace(s[0]) ==> !IsSpace(Lower(s)[0])
    ensures |s| > 0 && !IsSpace(s[|s| - 1]) ==> !IsSpace(Lower(s)[|s| - 1])
  {
  }

  /** Tab labels that differ only in the length or kind of one whitespace run
      get the same name. */
  lemma WhitespaceVariantsCollide(pathname: Option<string>, now: nat, a: string, r1: string, r2: string, b: string)
    requires |r1| > 0 && AllSpace(r1) && |r2| > 0 && AllSpace(r2)
    requires |a| > 0 ==> !IsSpace(a[|a| - 1])
    requires |b| > 0 ==> !IsSpace(b[0])
    ensures Filename(pathname, a + r1 + b, now) == Filename(pathname, a + r2 + b, now)
  {
    SanitizeIgnoresRunShape(a, r1, r2, b);
  }

  // The worked examples from here on name their literal strings as
  // parameters fixed by `requires`: the proofs then reason about the names
  // and a few per-character facts instead of unfolding every operation over
  // the literals, which keeps them small.

  lemma SameNameForDistinctTabs(pathname: Option<string>, now: nat, upper: string, lower: string)
    requires upper == "Reviews" && lower == "reviews"
    ensures Filename(pathname, upper, now) == Filename(pathname, lower, now)
  {
    assert Lower(upper) == lower by {
      assert |Lower(upper)| == |lower|;
      forall i | 0 <= i < |lower|
        ensures Lower(upper)[i] == lower[i]
      {
        if i == 0 {
          assert LowerChar('R') == 'r';
        }
      }
    }
    CaseVariantsCollide(pathname, upper, now);
  }

  /** A lower-case word of at most 50 letters is its own label part. */
  lemma LowerWordTail(w: string)
    requires 0 < |w| <= MaxLabelLength
    requires forall i :: 0 <= i < |w| ==> 'a' <= w[i] <= 'z'
    ensures LabelTail(w) == "_" + w
  {
    LowerUnchanged(w);
    CollapseUnchanged(w);
    FilterKeepsAccepted(IsLabelChar, w);
  }

  /** The worked examples: a two-segment path with and without a tab label. */
  lemma ProductsShoesStem(pathname: string, first: string, second: string)
    requires pathname == "/products/shoes" && first == "products" && second == "shoes"
    ensures PathStem(pathname) == first + "_" + second
  {
    assert pathname == "/" + first + "/" + second;
    assert AllNameChars(first) && AllNameChars(second);
    PathOfSegments(first, second);
  }

  lemma ReviewsLabel(suffix: string, word: string)
    requires suffix == "Reviews" && word == "reviews"
    ensures LabelTail(suffix) == "_" + word
  {
    assert Lower(suffix) == word by {
      forall i | 0 <= i < |word|
        ensures Lower(suffix)[i] == word[i]
      {
        if i == 0 {
          assert LowerChar('R') == 'r';
        }
      }
    }
    SanitizeIgnoresCase(suffix);
    LowerWordTail(word);
  }

  lemma ProductsShoesExamples(pathname: string, suffix: string, now: nat, first: string, second: string, word: string)
    requires pathname == "/products/shoes" && suffix == "Reviews"
    requires first == "products" && second == "shoes" && word == "reviews"
    ensures Filename(Some(pathname), suffix, now) == first + "_" + second + "_" + word + PngExtension
  {
    ProductsShoesStem(pathname, first, second);
    ReviewsLabel(suffix, word);
    NameFromParts(pathname, suffix, now, first + "_" + second, "_" + word);
  }

  lemma ProductsShoesWithoutLabel(pathname: string, now: nat, first: string, second: string)
    requires pathname == "/products/shoes" && first == "products" && second == "shoes"
    ensures Filename(Some(pathname), "", now) == first + "_" + second + PngExtension
  {
    ProductsShoesStem(pathname, first, second);
    assert LabelTail("") == [];
    NameFromParts(pathname, "", now, first + "_" + second, []);
  }

  lemma NameFromParts(pathname: string, suffix: string, now: nat, stem: string, tail: string)
    requires PathStem(pathname) == stem && LabelTail(suffix) == tail
    ensures Filename(Some(pathname), suffix, now) == stem + tail + PngExtension
  {
    ParsedFilename(pathname, suffix, now);
  }

  /** On the success path the name is the path stem, the label tail and '.png'. */
  lemma ParsedFilename(pathname: string, suffix: string, now: nat)
    ensures Filename(Some(pathname), suffix, now) == PathStem(pathname) + LabelTail(suffix) + PngExtension
  {
  }

  /** The root path becomes 'home', but a path whose characters are all
      dropped is not empty at the 'home' test and leaves an empty stem. */
  lemma HomeAndEmptyStem(now: nat)
    ensures Filename(Some("/"), "", now) == "home.png"
    ensures Filename(Some("/-/"), "", now) == ".png"
  {
    assert StripEdgeSlashes("/") == [];
    var dash := StripEdgeSlashes("/-/");
    assert "/-/"[1..] == "-/";
    assert dash == "-";
    assert SlashesToUnderscores(dash) == "-";
    FilterDropsRejected(IsNameChar, "-");
    assert SanitizeLabel("") == [];
  }

  /** When the URL is rejected, a label 'X' gives 'capture_x_<now>.png'. */
  lemma FallbackExample(now: nat, suffix: string, word: string)
    requires suffix == "X" && word == "x"
    ensures Filename(None, suffix, now) == FallbackStem + "_" + word + "_" + Decimal(now) + PngExtension
  {
    assert Lower(suffix) == word by {
      assert LowerChar('X') == 'x';
    }
    SanitizeIgnoresCase(suffix);
    LowerWordTail(word);
    FallbackSharesLabelTail(suffix, now);
    ConcatAssoc(FallbackStem, "_", word);
  }
}

=== FILE: js_text.dfy ===
/** The JavaScript string primitives the capture route relies on: `\s` and
    `trim()`, ASCII case mapping, `includes`, and the decimal rendering of a
    non-negative integer (`String(n)` / template interpolation). */
module JsText {

  /** The characters matched by `\s` in a JavaScript regular expression and
      removed by `String.prototype.trim`: the WhiteSpace and LineTerminator
      code points of ECMA-262. */
  predicate IsSpace(c: char) {
    || c == '\t' || c == '\n' || c == '\U{000B}' || c == '\U{000C}' || c == '\r'
    || c == ' ' || c == '\U{00A0}' || c == '\U{1680}'
    || ('\U{2000}' <= c <= '\U{200A}')
    || c == '\U{2028}' || c == '\U{2029}' || c == '\U{202F}' || c == '\U{205F}'
    || c == '\U{3000}' || c == '\U{FEFF}'
  }

  predicate AllSpace(s: string) {
    forall i :: 0 <= i < |s| ==> IsSpace(s[i])
  }

  predicate NoSpace(s: string) {
    forall i :: 0 <= i < |s| ==> !IsSpace(s[i])
  }

  /** `trimStart()`: what is left after the leading run of whitespace. */
  function TrimStart(s: string): (r: string)
    ensures |r| <= |s| && r == s[|s| - |r|..]
    ensures AllSpace(s[..|s| - |r|])
    ensures |r| > 0 ==> !IsSpace(r[0])
  {
    if |s| > 0 && IsSpace(s[0]) then TrimStart(s[1..]) else s
  }

  /** `trimEnd()`: what is left before the trailing run of whitespace. */
  function TrimEnd(s: string): (r: string)
    ensures |r| <= |s| && r == s[..|r|]
    ensures AllSpace(s[|r|..])
    ensures |r| > 0 ==> !IsSpace(r[|r| - 1])
  {
    if |s| > 0 && IsSpace(s[|s| - 1]) then TrimEnd(s[..|s| - 1]) else s
  }

  /** `trim()`. */
  function Trim(s: string): (r: string)
    ensures |r| <= |s|
    ensures |r| > 0 ==> !IsSpace(r[0]) && !IsSpace(r[|r| - 1])
  {
    TrimEnd(TrimStart(s))
  }

  /** A string with no whitespace at either end is its own trim, so trimming
      twice is trimming once. */
  lemma TrimUnchanged(s: string)
    requires |s| > 0 ==> !IsSpace(s[0]) && !IsSpace(s[|s| - 1])
    ensures Trim(s) == s
  {
  }

  lemma TrimIdempotent(s: string)
    ensures Trim(Trim(s)) == Trim(s)
  {
    TrimUnchanged(Trim(s));
  }

  predicate IsUpper(c: char) {
    'A' <= c <= 'Z'
  }

  /** `toLowerCase()` restricted to ASCII letters. */
  function LowerChar(c: char): char {
    if IsUpper(c) then (c as int + 32) as char else c
  }

  function Lower(s: string): (r: string)
    ensures |r| == |s|
    ensures forall i :: 0 <= i < |s| ==> r[i] == LowerChar(s[i])
  {
    seq(|s|, i requires 0 <= i < |s| => LowerChar(s[i]))
  }

  /** Lower-casing leaves no upper-case letter, and is the identity on strings
      that have none, so it is idempotent. */
  lemma LowerLeavesNoUpper(s: string)
    ensures forall i :: 0 <= i < |s| ==> !IsUpper(Lower(s)[i])
  {
  }

  lemma LowerUnchanged(s: string)
    requires forall i :: 0 <= i < |s| ==> !IsUpper(s[i])
    ensures Lower(s) == s
  {
  }

  lemma LowerIdempotent(s: string)
    ensures Lower(Lower(s)) == Lower(s)
  {
    LowerLeavesNoUpper(s);
    LowerUnchanged(Lower(s));
  }

  predicate StartsWith(s: string, p: string) {
    |p| <= |s| && s[..|p|] == p
  }

  predicate EndsWith(s: string, q: string) {
    |q| <= |s| && s[|s| - |q|..] == q
  }

  lemma StartsWithConcat(a: string, b: string, p: string)
    requires StartsWith(a, p)
    ensures StartsWith(a + b, p)
  {
    assert (a + b)[..|p|] == a[..|p|];
  }

  lemma EndsWithConcat(a: string, b: string, q: string)
    requires EndsWith(a, q)
    ensures EndsWith(a + b, q + b)
  {
    assert (a + b)[|a + b| - |q + b|..] == a[|a| - |q|..] + b;
  }

  lemma StartsWithOwnPrefix(a: string, b: string)
    ensures StartsWith(a + b, a)
  {
    assert (a + b)[..|a|] == a;
  }

  lemma EndsWithOwnSuffix(a: string, b: string)
    ensures EndsWith(a + b, b)
  {
    assert (a + b)[|a|..] == b;
  }

  /** `s.includes(p)`: `p` occurs in `s` at some offset. */
  predicate Contains(s: string, p: string)
    decreases |s|
  {
    StartsWith(s, p) || (|s| > 0 && Contains(s[1..], p))
  }

  lemma {:induction false} ContainsChar(s: string, c: char)
    ensures Contains(s, [c]) <==> c in s
    decreases |s|
  {
    if |s| > 0 {
      ContainsChar(s[1..], c);
      assert s == [s[0]] + s[1..];
    }
  }

  predicate IsDigit(c: char) {
    '0' <= c <= '9'
  }

  function DigitChar(d: nat): (c: char)
    requires d < 10
    ensures IsDigit(c)
  {
    ('0' as int + d) as char
  }

  function DigitValue(c: char): (d: nat)
    requires IsDigit(c)
    ensures d < 10 && DigitChar(d) == c
  {
    c as int - '0' as int
  }

  /** The decimal numeral of `n`, as JavaScript renders a non-negative safe
      integer: digits only, no leading zero. */
  function Decimal(n: nat): (r: string)
    ensures |r| > 0
    ensures forall i :: 0 <= i < |r| ==> IsDigit(r[i])
    ensures |r| > 1 ==> r[0] != '0'
    decreases n
  {
    if n < 10 then [DigitChar(n)] else Decimal(n / 10) + [DigitChar(n % 10)]
  }

  /** The number a string of decimal digits denotes. */
  function DecimalValue(s: string): nat
    requires forall i :: 0 <= i < |s| ==> IsDigit(s[i])
  {
    if |s| == 0 then 0 else DecimalValue(s[..|s| - 1]) * 10 + DigitValue(s[|s| - 1])
  }

  /** Reading back the numeral gives the number: the rendering loses nothing. */
  lemma {:induction false} DecimalRoundTrip(n: nat)
    ensures DecimalValue(Decimal(n)) == n
    decreases n
  {
    if n >= 10 {
      DecimalRoundTrip(n / 10);
      var s := Decimal(n);
      assert s[..|s| - 1] == Decimal(n / 10);
      assert DigitValue(s[|s| - 1]) == n % 10;
    }
  }

  /** Distinct numbers get distinct numerals. */
  lemma DecimalInjective(m: nat, n: nat)
    requires Decimal(m) == Decimal(n)
    ensures m == n
  {
    DecimalRoundTrip(m);
    DecimalRoundTrip(n);
  }
}

=== FILE: outcomes.dfy ===
/** Outcomes of the calls the capture route awaits on the browser driver.
    The driver itself is not modelled: each call is represented only by what it
    returned, so a scenario is a script of such outcomes. */
module Outcomes {

  datatype Option<+T> = None | Some(value: T)

  /** Why an awaited call rejected. Both kinds carry the message that the route
      logs and forwards as the `details` of a server-error response. */
  datatype Fault = TimedOut(message: string) | Threw(message: string)

  /** The scripted result of one awaited call. */
  datatype Step<+T> = Ok(value: T) | Fail(fault: Fault)

  /** The result of a call whose resolved value is ignored. */
  type Done = Step<()>
}

=== FILE: popups.dfy ===
/** `closePopups` of the capture route: at most one click that dismisses a
    popup or consent banner. The page is given as data: what each structural
    selector query yields, and the button-like elements the in-page textual
    scan would visit, in document order. */
module Popups {
  import opened Outcomes
  import opened JsText

  /** The structural selectors, tried in this order. */
  const CssSelectors: seq<string> := [
    "button[aria-label*=\"Close\"]",
    "button[aria-label*=\"Dismiss\"]",
    "button[aria-label*=\"Fermer\"]",
    "button[aria-label*=\"Rejeter\"]",
    "[role=\"dialog\"] button[aria-label*=\"Close\"]",
    "[role=\"dialog\"] button[aria-label*=\"Fermer\"]",
    "button.modal__close",
    "button.popup-close",
    "button.close-button",
    "button.mfp-close",
    "button.fancybox-close-small",
    "button.artdeco-modal__dismiss",
    "button[data-tracking-control-name=\"dialog_dismiss_btn\"]",
    "button[aria-label*=\"close\" i]",
    "button[aria-label*=\"fermer\" i]",
    "button[class*=\"close\"]",
    "button[id*=\"cookie\"]",
    "button[class*=\"cookie\"]",
    "div[id*=\"cookie\"] button",
    "div[class*=\"cookie\"] button",
    "[data-testid=\"dialog_close_button\"]",
    "[data-testid=\"modal-close\"]",
    "[role=\"dialog\"] button"
  ]

  /** The button texts looked for by the textual scan (lower case). */
  const ButtonTexts: seq<string> := [
    "accept", "accepter", "agree", "consent", "got it", "ok", "compris",
    "continue", "continuer", "close", "fermer", "dismiss", "rejeter",
    "allow", "autoriser", "confirm", "confirmer"
  ]

  const MultiplicationSign: string := "\U{00D7}"

  /** What the scan receives: the button texts plus the two close glyphs. */
  const Vocabulary: seq<string> := ButtonTexts + [MultiplicationSign, "x"]

  // ----- structural pass -----

  /** `isIntersectingViewport()` resolved true, resolved false, or threw. */
  datatype Probe = Intersecting | Outside | ProbeFails

  /** One element handle returned by a selector query. */
  datatype Candidate = Candidate(probe: Probe, clickThrows: bool)

  /** `page.$$(selector)` threw or returned handles in query order. */
  datatype Query = QueryFails | Matched(handles: seq<Candidate>)

  /** A handle the structural pass clicks successfully. */
  predicate Clickable(c: Candidate) {
    c.probe.Intersecting? && !c.clickThrows
  }

  /** The query of one selector yields at least one clickable handle. */
  predicate Offers(q: Query) {
    q.Matched? && exists k :: 0 <= k < |q.handles| && Clickable(q.handles[k])
  }

  /** The inner loop: the first handle that intersects the viewport and whose
      click does not throw. A failed probe or click only skips that handle. */
  function FirstClickable(hs: seq<Candidate>): (r: Option<nat>)
    ensures r.Some? ==> r.value < |hs| && Clickable(hs[r.value])
    ensures r.Some? ==> forall k :: 0 <= k < r.value ==> !Clickable(hs[k])
    ensures r.None? <==> forall k :: 0 <= k < |hs| ==> !Clickable(hs[k])
  {
    if |hs| == 0 then None
    else if Clickable(hs[0]) then Some(0)
    else match FirstClickable(hs[1..])
      case None => None
      case Some(k) => Some(k + 1)
  }

  /** Where the structural pass clicked: selector position and handle position. */
  datatype Pick = Pick(selector: nat, element: nat)

  /** The number of structural selectors. The page is given the answer of
      each selector's query by position, so the pass itself only needs to
      know how many there are. */
  const SelectorCount: nat := 23

  lemma SelectorCountMatches()
    ensures |CssSelectors| == SelectorCount
  {
  }

  /** The outer loop over the selectors from position `from`; `query(s)` is
      what `page.$$(CssSelectors[s])` yields. A failed query only skips its
      selector; the first selector offering a clickable handle wins. */
  function StructuralFrom(query: nat -> Query, from: nat): (r: Option<Pick>)
    requires from <= SelectorCount
    ensures r.None? <==> forall s :: from <= s < SelectorCount ==> !Offers(query(s))
    ensures r.Some? ==>
      var p := r.value;
      && from <= p.selector < SelectorCount
      && Offers(query(p.selector))
      && (forall s :: from <= s < p.selector ==> !Offers(query(s)))
      && FirstClickable(query(p.selector).handles) == Some(p.element)
    decreases SelectorCount - from
  {
    if from == SelectorCount then None
    else
      var q := query(from);
      if q.Matched? && FirstClickable(q.handles).Some? then
        Some(Pick(from, FirstClickable(q.handles).value))
      else
        StructuralFrom(query, from + 1)
  }

  function StructuralPass(query: nat -> Query): Option<Pick> {
    StructuralFrom(query, 0)
  }

  // ----- textual fallback -----

  /** One element of `button, a, [role="button"], [aria-label*="close" i],
      [aria-label*="fermer" i]` as the in-page scan sees it. */
  datatype TextCandidate = TextCandidate(
    attached: bool,             // document.body.contains(element)
    text: string,               // textContent
    ariaLabel: Option<string>,  // getAttribute('aria-label')
    width: int, height: int,    // getBoundingClientRect()
    display: string, visibility: string, opacity: string,  // getComputedStyle
    clickThrows: bool)          // element.click() threw

  /** The trimmed, lower-cased text, or the aria-label when the text is empty. */
  function ElementText(c: TextCandidate): Option<string> {
    var t := Lower(Trim(c.text));
    if t != [] then Some(t)
    else match c.ariaLabel
      case None => None
      case Some(a) => Some(Lower(Trim(a)))
  }

  predicate MentionsVocabulary(c: TextCandidate) {
    match ElementText(c)
    case None => false
    case Some(t) => t != [] && exists i :: 0 <= i < |Vocabulary| && Contains(t, Vocabulary[i])
  }

  /** The trimmed text is exactly '×', or upper-cases to 'X'. */
  predicate IsCloseGlyph(text: string) {
    var t := Trim(text);
    t == MultiplicationSign || t == "x" || t == "X"
  }

  predicate Visible(c: TextCandidate) {
    c.width > 0 && c.height > 0 && c.display != "none" && c.visibility != "hidden" && c.opacity != "0"
  }

  /** The scan tries to click this element. */
  predicate Qualifies(c: TextCandidate) {
    c.attached && (MentionsVocabulary(c) || IsCloseGlyph(c.text)) && Visible(c)
  }

  /** The scan clicks this element and stops. */
  predicate Dispatches(c: TextCandidate) {
    Qualifies(c) && !c.clickThrows
  }

  /** The scan's loop: the first qualifying element whose click does not throw. */
  function FirstDispatch(cs: seq<TextCandidate>): (r: Option<nat>)
    ensures r.Some? ==> r.value < |cs| && Dispatches(cs[r.value])
    ensures r.Some? ==> forall k :: 0 <= k < r.value ==> !Dispatches(cs[k])
    ensures r.None? <==> forall k :: 0 <= k < |cs| ==> !Dispatches(cs[k])
  {
    FirstWhere(cs, Dispatches, 0)
  }

  /** The first position from `i` on whose element satisfies `p`. */
  function FirstWhere<T>(xs: seq<T>, p: T -> bool, i: nat): (r: Option<nat>)
    requires i <= |xs|
    ensures r.Some? ==> i <= r.value < |xs| && p(xs[r.value])
    ensures r.Some? ==> forall k :: i <= k < r.value ==> !p(xs[k])
    ensures r.None? <==> forall k :: i <= k < |xs| ==> !p(xs[k])
    decreases |xs| - i
  {
    if i == |xs| then None
    else if p(xs[i]) then Some(i)
    else FirstWhere(xs, p, i + 1)
  }

  /** The in-page scan: the candidates, and whether the `page.evaluate` call
      rejected (for instance because a click navigated and destroyed the
      execution context). */
  datatype TextScan = TextScan(candidates: seq<TextCandidate>, rejects: bool)

  /** The page as `closePopups` sees it. */
  datatype PopupPage = PopupPage(query: nat -> Query, scan: TextScan)

  datatype Target = Structural(pick: Pick) | Textual(index: nat)

  /** `clicked` is the boolean `closePopups` returns; `target` is the element
      it dispatched a click to, if any. */
  datatype Dismissal = Dismissal(clicked: bool, target: Option<Target>)

  /** `closePopups(page)`. */
  function ClosePopups(page: PopupPage): (d: Dismissal)
    ensures d.clicked ==> d.target.Some?
    ensures d.target.Some? && d.target.value.Structural? ==> d.clicked
  {
    match StructuralPass(page.query)
    case Some(p) => Dismissal(true, Some(Structural(p)))
    case None =>
      match FirstDispatch(page.scan.candidates)
      case Some(k) => Dismissal(!page.scan.rejects, Some(Textual(k)))
      case None => Dismissal(false, None)
  }

  // ----- properties -----

  predicate AnyStructuralOffer(query: nat -> Query) {
    exists s :: 0 <= s < SelectorCount && Offers(query(s))
  }

  predicate AnyTextDispatch(scan: TextScan) {
    exists k :: 0 <= k < |scan.candidates| && Dispatches(scan.candidates[k])
  }

  /** `closePopups` reports a click exactly when some selector offers a
      clickable handle, or the scan finds an element to click and the
      evaluation does not reject. */
  lemma ClickedIff(page: PopupPage)
    ensures ClosePopups(page).clicked <==>
      AnyStructuralOffer(page.query) || (!page.scan.rejects && AnyTextDispatch(page.scan))
  {
    var sp := StructuralPass(page.query);
    if sp.None? {
      assert !AnyStructuralOffer(page.query);
      var fd := FirstDispatch(page.scan.candidates);
      if fd.Some? {
        assert Dispatches(page.scan.candidates[fd.value]);
      }
    } else {
      assert Offers(page.query(sp.value.selector));
    }
  }

  /** A structural match wins whatever the textual scan would do: the scan is
      never consulted. */
  lemma StructuralFirst(query: nat -> Query, scan: TextScan, other: TextScan)
    requires AnyStructuralOffer(query)
    ensures ClosePopups(PopupPage(query, scan)).clicked
    ensures ClosePopups(PopupPage(query, scan)) == ClosePopups(PopupPage(query, other))
    ensures ClosePopups(PopupPage(query, scan)).target.value.Structural?
  {
    assert StructuralPass(query).Some?;
  }

  /** The structural click goes to the first offering selector and, within
      it, to the first clickable handle. */
  lemma StructuralPicksFirst(page: PopupPage, s: nat, k: nat)
    requires s < SelectorCount && page.query(s).Matched?
    requires k < |page.query(s).handles|
    requires Clickable(page.query(s).handles[k])
    ensures ClosePopups(page).target.Some?
    ensures var t := ClosePopups(page).target.value;
      t.Structural? && (t.pick.selector < s || (t.pick.selector == s && t.pick.element <= k))
  {
    var sp := StructuralPass(page.query);
    assert Offers(page.query(s));
  }

  /** With nothing to click anywhere no click happens. */
  lemma NothingToDismiss(page: PopupPage)
    requires !AnyStructuralOffer(page.query) && !AnyTextDispatch(page.scan)
    ensures ClosePopups(page) == Dismissal(false, None)
  {
  }

  /** A rejected evaluation reports no click even when the scan had already
      dispatched one. */
  lemma RejectionHidesClick(page: PopupPage)
    requires !AnyStructuralOffer(page.query) && page.scan.rejects && AnyTextDispatch(page.scan)
    ensures ClosePopups(page).target.Some? && ClosePopups(page).target.value.Textual?
    ensures !ClosePopups(page).clicked
  {
  }

  /** The textual click goes to the first element, in document order, that
      qualifies and whose click does not throw. */
  lemma TextualPicksFirst(page: PopupPage)
    requires !AnyStructuralOffer(page.query) && AnyTextDispatch(page.scan)
    ensures ClosePopups(page).target.Some? && ClosePopups(page).target.value.Textual?
    ensures var k := ClosePopups(page).target.value.index;
      && k < |page.scan.candidates|
      && Dispatches(page.scan.candidates[k])
      && forall j :: 0 <= j < k ==> !Dispatches(page.scan.candidates[j])
  {
  }

  /** The last two vocabulary entries are the close glyphs. */
  lemma GlyphsInVocabulary()
    ensures |Vocabulary| == |ButtonTexts| + 2
    ensures Vocabulary[|Vocabulary| - 2] == MultiplicationSign
    ensures Vocabulary[|Vocabulary| - 1] == "x"
  {
  }

  /** An element whose text contains some vocabulary entry matches. */
  lemma MentionsEntry(c: TextCandidate, k: nat)
    requires k < |Vocabulary|
    requires ElementText(c).Some? && ElementText(c).value != []
    requires Contains(ElementText(c).value, Vocabulary[k])
    ensures MentionsVocabulary(c)
  {
  }

  /** Because 'x' is in the vocabulary, any element whose text mentions the
      letter x ('Next', 'Explore', ...) matches the vocabulary. */
  lemma AnyLetterXMatches(c: TextCandidate)
    requires 'x' in Lower(Trim(c.text))
    ensures MentionsVocabulary(c)
  {
    var t := Lower(Trim(c.text));
    assert ElementText(c) == Some(t);
    ContainsChar(t, 'x');
    GlyphsInVocabulary();
    MentionsEntry(c, |Vocabulary| - 1);
  }

  /** A close glyph's element text is the glyph itself, lower-cased. */
  lemma GlyphText(c: TextCandidate)
    requires IsCloseGlyph(c.text)
    ensures ElementText(c) == Some(MultiplicationSign) || ElementText(c) == Some("x")
  {
    var t := Trim(c.text);
    var l := Lower(t);
    assert |t| == 1;
    assert l == [LowerChar(t[0])];
    assert ElementText(c) == Some(l);
    if t == MultiplicationSign {
      assert t[0] == '\U{00D7}';
    } else if t == "x" {
      assert t[0] == 'x';
    } else {
      assert t[0] == 'X';
    }
  }

  /** The exact close-glyph test adds nothing: such a text already matches
      the vocabulary. */
  lemma CloseGlyphAlreadyMatches(c: TextCandidate)
    requires IsCloseGlyph(c.text)
    ensures MentionsVocabulary(c)
  {
    GlyphText(c);
    GlyphsInVocabulary();
    var t := ElementText(c).value;
    StartsWithOwnPrefix(t, []);
    assert t + [] == t;
    if t == MultiplicationSign {
      MentionsEntry(c, |Vocabulary| - 2);
    } else {
      MentionsEntry(c, |Vocabulary| - 1);
    }
  }
}

=== FILE: scrolling.dfy ===
/** `scrollToBottomAndLoadImages` of the capture route and the route's policy
    for an error it might raise. */
module Scrolling {
  import opened Outcomes
  import opened JsText

  /** The message by which the route recognises a script context destroyed by
      a navigation. */
  const ContextDestroyed := "Execution context was destroyed"

  /** The awaited calls of `scrollToBottomAndLoadImages` that can reject: the
      `evaluate` running the in-page scroll loop, and the `evaluate` scrolling
      back to the top. The wait for visible images between them catches its
      own errors, so its outcome is not part of the script. */
  datatype ScrollWork = ScrollWork(loop: Done, backToTop: Done)

  /** `resolved` is how the call settles; `atTop` says whether the page was
      scrolled back to the top before it returned. */
  datatype ScrollEnd = ScrollEnd(resolved: Done, atTop: bool)

  /** `scrollToBottomAndLoadImages(page)`: the loop, then the scroll back to
      the top, inside a try whose catch logs and swallows the error. A
      rejected loop skips the scroll back. */
  function ScrollToBottomAndLoadImages(w: ScrollWork): (r: ScrollEnd)
    ensures r.resolved.Ok?
    ensures r.atTop <==> w.loop.Ok? && w.backToTop.Ok?
  {
    match w.loop
    case Fail(_) => ScrollEnd(Ok(()), false)
    case Ok(_) =>
      match w.backToTop
      case Fail(_) => ScrollEnd(Ok(()), false)
      case Ok(_) => ScrollEnd(Ok(()), true)
  }

  /** The page need not end at the origin: a rejected loop leaves it wherever
      the loop stopped, whatever the scroll back would have done, and the call
      still resolves. */
  lemma RejectedLoopSkipsReturn(f: Fault, back: Done, other: Done)
    ensures ScrollToBottomAndLoadImages(ScrollWork(Fail(f), back)) == ScrollToBottomAndLoadImages(ScrollWork(Fail(f), other))
    ensures !ScrollToBottomAndLoadImages(ScrollWork(Fail(f), back)).atTop
    ensures ScrollToBottomAndLoadImages(ScrollWork(Fail(f), back)).resolved.Ok?
  {
  }

  /** The catch around the call: an error is tolerated only when a popup was
      just clicked and the message says the execution context was destroyed;
      any other error is rethrown unchanged. `Ok` means carry on. */
  function ScrollDisposition(popupClosed: bool, scroll: Done): (r: Done)
    ensures r.Fail? <==> scroll.Fail? && !(popupClosed && Contains(scroll.fault.message, ContextDestroyed))
    ensures r.Fail? ==> r == scroll
  {
    match scroll
    case Ok(_) => Ok(())
    case Fail(f) =>
      if popupClosed && Contains(f.message, ContextDestroyed) then Ok(()) else Fail(f)
  }

  /** Since the call never rejects, the rethrow branch is unreachable: scrolling
      never aborts the request or a tab. */
  lemma ScrollNeverAborts(popupClosed: bool, w: ScrollWork)
    ensures ScrollDisposition(popupClosed, ScrollToBottomAndLoadImages(w).resolved).Ok?
  {
  }

  /** The same error is tolerated after a popup click and rethrown without one. */
  lemma DispositionDependsOnPopup(message: string)
    requires Contains(message, ContextDestroyed)
    ensures ScrollDisposition(true, Fail(Threw(message))).Ok?
    ensures ScrollDisposition(false, Fail(Threw(message))) == Fail(Threw(message))
  {
  }

  // ----- the in-page scroll loop -----

  /** The in-page loop as a sequence of ticks: tick `j` (from 1) reads the
      document height `height(j)`, scrolls by one viewport (`distance`) and
      stops once the `j * distance` scrolled so far reaches the height it
      read. The route puts no cap on the number of ticks; the loop ends when
      the heights are bounded. */
  method ScrollTicksBounded(height: nat -> nat, distance: nat, bound: nat) returns (ticks: nat)
    requires distance > 0
    requires forall j :: height(j) <= bound
    ensures ticks >= 1 && ticks * distance >= height(ticks)
    ensures forall j :: 1 <= j < ticks ==> j * distance < height(j)
    ensures (ticks - 1) * distance < bound || ticks == 1
  {
    ticks := 1;
    var total := distance;
    while total < height(ticks)
      invariant ticks >= 1 && total == ticks * distance
      invariant forall j :: 1 <= j < ticks ==> j * distance < height(j)
      invariant (ticks - 1) * distance < bound || ticks == 1
      decreases bound - total
    {
      ticks := ticks + 1;
      total := total + distance;
    }
  }

  /** The loop also ends when the document keeps growing, as long as it grows
      by less than one viewport per tick; the number of ticks is then at most
      one more than the first height read. */
  method ScrollTicksGrowing(height: nat -> nat, distance: nat) returns (ticks: nat)
    requires forall j, k :: k == j + 1 ==> height(k) < height(j) + distance
    ensures ticks >= 1 && ticks * distance >= height(ticks)
    ensures forall j :: 1 <= j < ticks ==> j * distance < height(j)
    ensures ticks <= height(1) + 1
  {
    ticks := 1;
    var total := distance;
    while total < height(ticks)
      invariant ticks >= 1 && total == ticks * distance
      invariant forall j :: 1 <= j < ticks ==> j * distance < height(j)
      invariant height(ticks) - total + ticks <= height(1) - distance + 1
      invariant ticks <= height(1) + 1
      decreases height(ticks) - total
    {
      assert height(ticks + 1) < height(ticks) + distance;
      ticks := ticks + 1;
      total := total + distance;
    }
  }
}

=== FILE: tabs.dfy ===
/** The tab path of the capture route: one label per tab found when the tab
    list was first queried, then one iteration per label that re-queries the
    tabs, clicks the one at its position, settles, and captures. An error
    inside an iteration is caught, so that tab adds nothing and later tabs
    still run. */
module Tabs {
  import opened Outcomes
  import opened JsText
  import opened Trace
  import opened Popups
  import opened Scrolling
  import opened Views

  const PlaceholderPrefix := "onglet_"

  /** The label of the tab at position `i`: its trimmed text, or
      'onglet_<i+1>' when the text is empty or could not be read. */
  function TabLabel(i: nat, read: Step<string>): (l: string)
    ensures |l| > 0
    ensures read.Ok? && Trim(read.value) != [] ==> l == Trim(read.value)
    ensures !(read.Ok? && Trim(read.value) != []) ==> l == PlaceholderPrefix + Decimal(i + 1)
  {
    match read
    case Ok(text) => if Trim(text) != [] then Trim(text) else PlaceholderPrefix + Decimal(i + 1)
    case Fail(_) => PlaceholderPrefix + Decimal(i + 1)
  }

  /** Labels for the tab texts read in order, one per tab. */
  function TabLabels(texts: seq<Step<string>>): (labels: seq<string>)
    ensures |labels| == |texts|
    ensures forall i :: 0 <= i < |texts| ==> labels[i] == TabLabel(i, texts[i])
  {
    seq(|texts|, i requires 0 <= i < |texts| => TabLabel(i, texts[i]))
  }

  /** No label is empty, and two placeholder labels are never equal. */
  lemma LabelsNonEmptyAndPlaceholdersDistinct(texts: seq<Step<string>>, i: nat, j: nat)
    requires i < |texts| && j < |texts| && i != j
    requires !(texts[i].Ok? && Trim(texts[i].value) != [])
    requires !(texts[j].Ok? && Trim(texts[j].value) != [])
    ensures |TabLabels(texts)[i]| > 0
    ensures TabLabels(texts)[i] != TabLabels(texts)[j]
  {
    PlaceholdersDiffer(i, j, TabLabel(i, texts[i]), TabLabel(j, texts[j]));
  }

  lemma PlaceholdersDiffer(i: nat, j: nat, li: string, lj: string)
    requires i != j
    requires li == PlaceholderPrefix + Decimal(i + 1) && lj == PlaceholderPrefix + Decimal(j + 1)
    ensures li != lj
  {
    PrefixCancels(PlaceholderPrefix, Decimal(i + 1), Decimal(j + 1));
    if Decimal(i + 1) == Decimal(j + 1) {
      DecimalInjective(i + 1, j + 1);
    }
  }

  lemma PrefixCancels(prefix: string, a: string, b: string)
    ensures prefix + a == prefix + b ==> a == b
  {
    if prefix + a == prefix + b {
      assert (prefix + a)[|prefix|..] == a;
      assert (prefix + b)[|prefix|..] == b;
    }
  }

  /** Scripted outcomes of one iteration: the re-query of the tab buttons
      (how many it found), the click, the page's popups, the in-page scroll
      work, and the capture. The wait for network idle after the click is
      caught and ignored, so its outcome is not part of the script. */
  datatype TabScript = TabScript(requery: Step<nat>, click: Done, popups: PopupPage, scroll: ScrollWork, capture: CaptureScript)

  datatype TabOutcome = TabOutcome(shot: Option<Shot>, viewport: Viewport, events: seq<Event>)

  /** The iteration reaches its screenshot and the screenshot succeeds. */
  predicate TabYields(i: nat, t: TabScript) {
    && t.requery.Ok? && t.requery.value > i
    && t.click.Ok?
    && t.capture.body.Ok? && t.capture.adapt.Ok? && t.capture.shot.Ok?
  }

  /** One iteration of the loop over labels, at position `i`. A shot is named
      `name(label)`; the route names it with `generateFilename` of the target
      URL and the label. */
  function RunTab(name: string -> string, i: nat, tabLabel: string, t: TabScript, current: Viewport): (o: TabOutcome)
    ensures o.shot.Some? <==> TabYields(i, t)
    ensures o.shot.Some? ==> o.shot.value == Shot(name(tabLabel), t.capture.shot.value)
    ensures TabYields(i, t) && t.capture.restore.Ok? ==> o.viewport == current
    ensures SettleGated(o.events) && NoLifecycle(o.events)
  {
    match t.requery
    case Fail(_) => TabOutcome(None, current, [])
    case Ok(found) =>
      if found <= i then
        // the tab list changed: skip this label
        TabOutcome(None, current, [])
      else
        match t.click
        case Fail(_) => TabOutcome(None, current, [TabClicked(i)])
        case Ok(_) =>
          var p := PrepareView(t.popups, t.scroll);
          var head := [TabClicked(i)] + p.events;
          SettleGatedConcat([TabClicked(i)], p.events);
          NoLifecycleConcat([TabClicked(i)], p.events);
          if p.disposition.Fail? then
            TabOutcome(None, current, head)
          else
            var c := CaptureView(current, t.capture, name(tabLabel));
            SettleGatedConcat(head, c.events);
            NoLifecycleConcat(head, c.events);
            TabOutcome(c.shot, c.viewport, head + c.events)
  }

  datatype TabRun = TabRun(shots: seq<Shot>, viewport: Viewport, events: seq<Event>)

  /** The loop from position `i`, threading the viewport from one iteration
      to the next: an iteration that fails after resizing leaves the resized
      viewport for the next. `tabs(i)` scripts iteration `i`. */
  function TabLoop(name: string -> string, labels: seq<string>, tabs: nat -> TabScript, i: nat, current: Viewport): (r: TabRun)
    requires i <= |labels|
    ensures SettleGated(r.events) && NoLifecycle(r.events)
    decreases |labels| - i
  {
    if i == |labels| then TabRun([], current, [])
    else
      var o := RunTab(name, i, labels[i], tabs(i), current);
      var rest := TabLoop(name, labels, tabs, i + 1, o.viewport);
      SettleGatedConcat(o.events, rest.events);
      NoLifecycleConcat(o.events, rest.events);
      TabRun((if o.shot.Some? then [o.shot.value] else []) + rest.shots, rest.viewport, o.events + rest.events)
  }

  /** What the loop should return, stated tab by tab without the viewport:
      for each position in order, the shot named `name(label)` after that
      tab's label when the iteration yields, and nothing otherwise. */
  function ExpectedShots(name: string -> string, labels: seq<string>, tabs: nat -> TabScript, i: nat): seq<Shot>
    requires i <= |labels|
    decreases |labels| - i
  {
    if i == |labels| then []
    else
      (if TabYields(i, tabs(i)) then [Shot(name(labels[i]), tabs(i).capture.shot.value)] else [])
      + ExpectedShots(name, labels, tabs, i + 1)
  }

  /** Per-tab isolation: the shots do not depend on the viewport threaded
      between iterations, nor on how an earlier tab failed; they are exactly
      the shots of the tabs that yield, in position order. */
  lemma {:induction false} TabLoopShots(name: string -> string, labels: seq<string>, tabs: nat -> TabScript, i: nat, current: Viewport)
    requires i <= |labels|
    ensures TabLoop(name, labels, tabs, i, current).shots == ExpectedShots(name, labels, tabs, i)
    decreases |labels| - i
  {
    if i < |labels| {
      var o := RunTab(name, i, labels[i], tabs(i), current);
      TabLoopShots(name, labels, tabs, i + 1, o.viewport);
    }
  }

  /** There is at most one shot per label. */
  lemma {:induction false} ExpectedShotsBound(name: string -> string, labels: seq<string>, tabs: nat -> TabScript, i: nat)
    requires i <= |labels|
    ensures |ExpectedShots(name, labels, tabs, i)| <= |labels| - i
    decreases |labels| - i
  {
    if i < |labels| {
      ExpectedShotsBound(name, labels, tabs, i + 1);
    }
  }

  /** How many positions from `i` on yield a shot. */
  function YieldCount(tabs: nat -> TabScript, i: nat, n: nat): nat
    requires i <= n
    decreases n - i
  {
    if i == n then 0 else (if TabYields(i, tabs(i)) then 1 else 0) + YieldCount(tabs, i + 1, n)
  }

  /** The loop returns one shot per yielding tab. */
  lemma {:induction false} ExpectedShotsCount(name: string -> string, labels: seq<string>, tabs: nat -> TabScript, i: nat)
    requires i <= |labels|
    ensures |ExpectedShots(name, labels, tabs, i)| == YieldCount(tabs, i, |labels|)
    decreases |labels| - i
  {
    if i < |labels| {
      ExpectedShotsCount(name, labels, tabs, i + 1);
    }
  }

  lemma {:induction false} OneFailingCount(tabs: nat -> TabScript, i: nat, n: nat, k: nat)
    requires i <= n && k < n
    requires forall j :: i <= j < n && j != k ==> TabYields(j, tabs(j))
    requires !TabYields(k, tabs(k))
    ensures YieldCount(tabs, i, n) == n - i - (if i <= k then 1 else 0)
    decreases n - i
  {
    if i < n {
      OneFailingCount(tabs, i + 1, n, k);
    }
  }

  /** When every tab yields except the one at position `k`, the loop returns
      one shot fewer than there are labels. */
  lemma OneFailingTab(name: string -> string, labels: seq<string>, tabs: nat -> TabScript, k: nat)
    requires k < |labels|
    requires forall j :: 0 <= j < |labels| && j != k ==> TabYields(j, tabs(j))
    requires !TabYields(k, tabs(k))
    ensures |ExpectedShots(name, labels, tabs, 0)| == |labels| - 1
  {
    ExpectedShotsCount(name, labels, tabs, 0);
    OneFailingCount(tabs, 0, |labels|, k);
  }

  /** Every iteration from position `i` on yields and restores its viewport. */
  predicate AllRestore(tabs: nat -> TabScript, i: nat, n: nat)
    requires i <= n
    decreases n - i
  {
    i == n || (TabYields(i, tabs(i)) && tabs(i).capture.restore.Ok? && AllRestore(tabs, i + 1, n))
  }

  /** When every tab yields and restores its viewport, the viewport after the
      loop is the one before it. */
  lemma {:induction false} LoopRestoresViewport(name: string -> string, labels: seq<string>, tabs: nat -> TabScript, i: nat, current: Viewport)
    requires i <= |labels| && AllRestore(tabs, i, |labels|)
    ensures TabLoop(name, labels, tabs, i, current).viewport == current
    decreases |labels| - i
  {
    if i < |labels| {
      RestoringStep(name, labels, tabs, i, current);
      LoopRestoresViewport(name, labels, tabs, i + 1, current);
    }
  }

  /** An iteration that yields and restores leaves the viewport to the rest of
      the loop unchanged. */
  lemma RestoringStep(name: string -> string, labels: seq<string>, tabs: nat -> TabScript, i: nat, current: Viewport)
    requires i < |labels| && TabYields(i, tabs(i)) && tabs(i).capture.restore.Ok?
    ensures TabLoop(name, labels, tabs, i, current).viewport == TabLoop(name, labels, tabs, i + 1, current).viewport
  {
    var o := RunTab(name, i, labels[i], tabs(i), current);
    assert o.viewport == current;
  }
}

=== FILE: trace.dfy ===
/** The observable effects of one capture request, in order. The route's
    lifecycle and settling promises are stated as properties of this trace. */
module Trace {

  datatype Event =
    | Launched                    // puppeteer.launch resolved: a browser exists
    | Dismissed(clicked: bool)    // closePopups returned `clicked`
    | SettleWait                  // the extended network-idle wait after a popup click
    | Scrolled                    // scrollToBottomAndLoadImages was awaited
    | TabClicked(index: nat)      // a click on the re-queried tab button was attempted
    | ScreenshotTaken(filename: string)  // page.screenshot was called for this name
    | Closed                      // browser.close was called

  /** The extended wait follows every popup click and nothing else. */
  predicate SettleGated(t: seq<Event>) {
    && (forall j :: 0 <= j < |t| && t[j].SettleWait? ==> j > 0 && t[j - 1] == Dismissed(true))
    && (forall j :: 0 <= j < |t| && t[j] == Dismissed(true) ==> j + 1 < |t| && t[j + 1].SettleWait?)
  }

  /** A fragment that neither launches nor closes the browser. */
  predicate NoLifecycle(t: seq<Event>) {
    forall j :: 0 <= j < |t| ==> !t[j].Launched? && !t[j].Closed?
  }

  function CloseCount(t: seq<Event>): nat {
    if |t| == 0 then 0 else (if t[|t| - 1].Closed? then 1 else 0) + CloseCount(t[..|t| - 1])
  }

  /** Gated fragments stay gated when joined. */
  lemma SettleGatedConcat(a: seq<Event>, b: seq<Event>)
    requires SettleGated(a) && SettleGated(b)
    ensures SettleGated(a + b)
  {
    var t := a + b;
    forall j | 0 <= j < |t| && t[j].SettleWait?
      ensures j > 0 && t[j - 1] == Dismissed(true)
    {
      if j < |a| {
        assert t[j] == a[j];
        assert t[j - 1] == a[j - 1];
      } else {
        assert t[j] == b[j - |a|];
        assert j - |a| > 0;
        assert t[j - 1] == b[j - |a| - 1];
      }
    }
    forall j | 0 <= j < |t| && t[j] == Dismissed(true)
      ensures j + 1 < |t| && t[j + 1].SettleWait?
    {
      if j < |a| {
        assert t[j] == a[j];
        assert t[j + 1] == a[j + 1];
      } else {
        assert t[j] == b[j - |a|];
        assert t[j + 1] == b[j - |a| + 1];
      }
    }
  }

  lemma NoLifecycleConcat(a: seq<Event>, b: seq<Event>)
    requires NoLifecycle(a) && NoLifecycle(b)
    ensures NoLifecycle(a + b)
  {
    forall j | 0 <= j < |a + b|
      ensures !(a + b)[j].Launched? && !(a + b)[j].Closed?
    {
      if j >= |a| {
        assert (a + b)[j] == b[j - |a|];
      }
    }
  }

  /** Closing counts add up over a join. */
  lemma {:induction false} CloseCountConcat(a: seq<Event>, b: seq<Event>)
    ensures CloseCount(a + b) == CloseCount(a) + CloseCount(b)
    decreases |b|
  {
    if |b| == 0 {
      assert a + b == a;
    } else {
      assert (a + b)[..|a + b| - 1] == a + b[..|b| - 1];
      CloseCountConcat(a, b[..|b| - 1]);
    }
  }

  lemma {:induction false} NoLifecycleNoClose(t: seq<Event>)
    requires NoLifecycle(t)
    ensures CloseCount(t) == 0
    decreases |t|
  {
    if |t| > 0 {
      NoLifecycleNoClose(t[..|t| - 1]);
    }
  }
}

=== FILE: views.dfy ===
/** The two steps the route runs for every view it captures (the page, or one
    tab): settling after popup dismissal and scrolling, then adapting the
    viewport, taking the screenshot and restoring the viewport. */
module Views {
  import opened Outcomes
  import opened Trace
  import opened Popups
  import opened Scrolling

  // ----- settling -----

  datatype Prepared = Prepared(popupClosed: bool, disposition: Done, atTop: bool, events: seq<Event>)

  /** `closePopups`, then the extended network-idle wait only when it reported
      a click (a failed wait is caught and ignored, so only the fact that it
      is awaited is recorded), then scrolling under the route's error policy.
      `disposition` is `Fail` exactly when the scroll error is rethrown;
      `atTop` says whether the page was scrolled back to the top. */
  function PrepareView(popups: PopupPage, scroll: ScrollWork): (p: Prepared)
    ensures p.popupClosed == ClosePopups(popups).clicked
    ensures p.disposition.Ok?
    ensures p.atTop <==> scroll.loop.Ok? && scroll.backToTop.Ok?
    ensures SettleGated(p.events) && NoLifecycle(p.events)
    ensures p.popupClosed ==> p.events == [Dismissed(true), SettleWait, Scrolled]
    ensures !p.popupClosed ==> p.events == [Dismissed(false), Scrolled]
  {
    var clicked := ClosePopups(popups).clicked;
    ScrollNeverAborts(clicked, scroll);
    PreparedEventsGated();
    var scrolled := ScrollToBottomAndLoadImages(scroll);
    Prepared(clicked, ScrollDisposition(clicked, scrolled.resolved), scrolled.atTop,
             if clicked then [Dismissed(true), SettleWait, Scrolled] else [Dismissed(false), Scrolled])
  }

  lemma PreparedEventsGated()
    ensures SettleGated([Dismissed(true), SettleWait, Scrolled]) && NoLifecycle([Dismissed(true), SettleWait, Scrolled])
    ensures SettleGated([Dismissed(false), Scrolled]) && NoLifecycle([Dismissed(false), Scrolled])
  {
  }

  // ----- viewport and screenshot -----

  datatype Viewport = Viewport(width: nat, height: nat)

  /** The viewport set before navigation. */
  const InitialViewport := Viewport(1920, 1080)
  const FallbackWidth: nat := 1920
  const FallbackHeight: nat := 1080

  /** The viewport set before a capture: the current width (1920 when it is
      zero), and the first non-zero of the body's height, the current height
      and 1080. `bodyHeight` is `None` when there is no body or no box. */
  function AdaptViewport(bodyHeight: Option<nat>, current: Viewport): (v: Viewport)
    ensures v.width > 0 && v.height > 0
    ensures v.width == current.width || (current.width == 0 && v.width == FallbackWidth)
    ensures bodyHeight.Some? && bodyHeight.value > 0 ==> v.height == bodyHeight.value
    ensures (bodyHeight.None? || bodyHeight.value == 0) && current.height > 0 ==> v.height == current.height
    ensures v.height == current.height || v.height == FallbackHeight || bodyHeight == Some(v.height)
  {
    var height := match bodyHeight
      case Some(h) => if h > 0 then h else if current.height > 0 then current.height else FallbackHeight
      case None => if current.height > 0 then current.height else FallbackHeight;
    Viewport(if current.width > 0 then current.width else FallbackWidth, height)
  }

  /** The height is the first non-zero candidate, not the largest: a short
      body shrinks the viewport below its current height. */
  lemma AdaptIsNotMaximum()
    ensures AdaptViewport(Some(500), InitialViewport).height == 500 < InitialViewport.height
  {
  }

  datatype Shot = Shot(filename: string, data: string)

  /** Scripted outcomes of one capture: the body's box query (`page.$('body')`
      and `boundingBox()`), `setViewport` to the adapted size,
      `page.screenshot`, and `setViewport` back. */
  datatype CaptureScript = CaptureScript(body: Step<Option<nat>>, adapt: Done, shot: Step<string>, restore: Done)

  /** `shot` is what was pushed onto the results, `viewport` what
      `page.viewport()` reports afterwards (a failed `setViewport` leaves it
      unchanged), `fault` the error that ended the step early, if any. */
  datatype Capture = Capture(shot: Option<Shot>, viewport: Viewport, fault: Option<Fault>, events: seq<Event>)

  function CaptureView(current: Viewport, c: CaptureScript, filename: string): (r: Capture)
    ensures r.shot.Some? <==> c.body.Ok? && c.adapt.Ok? && c.shot.Ok?
    ensures r.shot.Some? ==> r.shot.value == Shot(filename, c.shot.value)
    ensures r.fault.None? <==> r.shot.Some? && c.restore.Ok?
    ensures r.fault.None? ==> r.viewport == current
    ensures r.viewport == current || (c.body.Ok? && r.viewport == AdaptViewport(c.body.value, current))
    ensures SettleGated(r.events) && NoLifecycle(r.events)
    // the fault is that of the first await that rejects
    ensures c.body.Fail? ==> r.fault == Some(c.body.fault)
    ensures c.body.Ok? && c.adapt.Fail? ==> r.fault == Some(c.adapt.fault)
    ensures c.body.Ok? && c.adapt.Ok? && c.shot.Fail? ==> r.fault == Some(c.shot.fault)
    ensures c.body.Ok? && c.adapt.Ok? && c.shot.Ok? && c.restore.Fail? ==> r.fault == Some(c.restore.fault)
  {
    match c.body
    case Fail(f) => Capture(None, current, Some(f), [])
    case Ok(h) =>
      var adapted := AdaptViewport(h, current);
      match c.adapt
      case Fail(f) => Capture(None, current, Some(f), [])
      case Ok(_) =>
        match c.shot
        case Fail(f) => Capture(None, adapted, Some(f), [ScreenshotTaken(filename)])
        case Ok(data) =>
          match c.restore
          case Fail(f) => Capture(Some(Shot(filename, data)), adapted, Some(f), [ScreenshotTaken(filename)])
          case Ok(_) => Capture(Some(Shot(filename, data)), current, None, [ScreenshotTaken(filename)])
  }
}
